=== FILE: README.md ===
# DataBowl estimate pipeline in Dafny

DataBowl takes a food photo and sends it to a generative model (Gemini). It
turns that generative model's free-text answer into a nutrition record and shows that record in a
React page. This project models the part of that path that makes decisions.

- **Server post-processing** (`server/server.js`):
  - `extractJson` cuts the outermost `{ ... }` span out of the generative model's text and parses it.
  - `visibilityGuard` drops dish names the generative model tends to infer rather than see (unless the name says "visible" or "plate"). It falls back to the unfiltered list when nothing would be left, rounds calories and the four macros, and fills in `notes` and `serving`.
- **The `POST /api/estimate` handler**: which HTTP status and error code a request ends in.
  - Inputs: whether the generative-model client exists, whether a file came with the request, what the generative model answered or raised, and how the retry went.
- **The result view and upload handler** (`src/Components/Estimate/Estimate.jsx`):
  - the items total and the macros table (4, 4 and 9 kcal per gram, fiber 0);
  - the serving, quantity and calories-cell defaults;
  - the items table and its count;
  - the message shown for a failed request.

`JSON.parse` and JavaScript's number↔text conversions are the fields of a `Runtime` value. The generative-model call and its retry are the `Upstream` and `Retry` arguments of `Gateway.Estimate`. Every property holds for any behaviour of either. JavaScript values are the datatype `Json`. Objects are maps, so key order is not modelled. A conversion that would raise a `TypeError` (an object whose own `toString` is not callable) is the `Threw` outcome.

Modules, one per file:

| file | module | contents |
|---|---|---|
| outcomes.dfy | `Outcomes` | `Option` and `Outcome` (a value, or a raised error) |
| js_text.dfy | `JsText` | `trim`, `indexOf`/`lastIndexOf`, `includes`, `toLowerCase`, decimal rendering |
| js_value.dfy | `JsValue` | JSON values, truthiness, `\|\|`, `??`, property access |
| js_coerce.dfy | `JsCoerce` | `ToPrimitive`, `String()`, `Number()`, `+`, `Math.round` |
| sanitizer.dfy | `Sanitizer` | `extractJson`, `visibilityGuard` |
| gateway.dfy | `Gateway` | the `POST /api/estimate` handler |
| estimate_view.dfy | `EstimateView` | the result view and `handleImageUpload` |
| client_server.dfy | `ClientServer` | what the page shows for each reply of the handler |

### How the code behaves where a reader might expect otherwise

The Dafny model follows the code on each of these points:

- **Negative numbers are kept.** A negative calorie or macro value stays negative after rounding. Nothing clamps it to zero.
- **Falsy values count as missing.**
  - A falsy `items` value (not just a missing one) gives `INVALID_RESPONSE`.
  - `notes` and `serving` are replaced when falsy, not only when absent.
- **The `serving` default counts the unfiltered list.** It uses the length of the item list before filtering.
- **A record's own `error` key is passed through.** If the guard lets through a record that carries a truthy `error` property, the handler answers 400 with that value as the code (`Gateway.Respond`).
  - `ANALYSIS_FAILED` is only the fallback of a `||` whose left side is never falsy. It is never produced on its own, but a generative-model answer can still carry it.
- **The retry's result is never used.** After a transient error the retry call is made. If it raises, the reply is `GEMINI_UNSTABLE`; if it returns, control falls through to the generic `SERVER_ERROR` reply. This is the stubbed retry as written (`server/server.js:156-159`), whose own comments say the processing of its answer is still to be written. The retry names the generative model ``gemini-2`.5-flash`` (with a stray backtick) and sends empty content. The Dafny model still leaves both outcomes of the retry open, because what the remote service does with that request is not part of it.
- **The guard screens names only.** It keeps a `null` item (its `item?.name` is undefined) and an item whose calories cannot be converted. The handler sends such a record with 200, and the result card then raises a `TypeError` while summing the items (`ClientServer.GuardedItemsTotal`, `ClientServer.NullItemBreaksCard`).
- **The page's 429 text needs a JSON body.** The page shows its rate-limit text only when the 429 response body is JSON; otherwise it shows `Server error 429`.
- **The items total can be text.** A non-empty string, array or object calories value makes the sum text from that item on. An empty string is falsy and counts as 0. `EstimateView.SumItems` says exactly when that happens. `EstimateView.SumItemsNumeric` gives the numeric total when it does not.

## Model

| member | source | states |
|---|---|---|
| JsText.Trim | server/server.js:58 | the trimmed text is the slice of the input left between two maximal runs of white space; both of its ends are non-space |
| JsText.IndexOf | server/server.js:62 | `indexOf` of one character is -1 or a position inside the text that holds the character |
| JsText.IndexOfFirst | server/server.js:62 | `indexOf` is -1 exactly when the character is absent, and otherwise no earlier position holds it |
| JsText.LastIndexOf | server/server.js:63 | `lastIndexOf` of one character is -1 or a position inside the text that holds the character |
| JsText.LastIndexOfLast | server/server.js:63 | `lastIndexOf` is -1 exactly when the character is absent, and otherwise no later position holds it |
| JsText.Contains | server/server.js:84 | `includes` holds exactly when the substring occurs at some position |
| JsText.ToLower | server/server.js:81 | lower-casing keeps the length and maps each character on its own |
| JsText.Decimal | src/Components/Estimate/Estimate.jsx:143 | the rendering of a status is a non-empty run of digits with no leading zero (unless the status is 0); with `DecimalRoundTrip` it reads back as the status |
| JsText.DecimalRoundTrip | src/Components/Estimate/Estimate.jsx:143 | reading a status's decimal rendering back gives the status |
| JsValue.Or | server/server.js:88 | `a \|\| b` is `a` when `a` is truthy and `b` otherwise |
| JsCoerce.ToPrimitive | server/server.js:81 | converting a value raises exactly when the value, or an element of an array inside it at any depth, is an object with an own `toString` key (which cannot be called); an object nested in another object's field does not raise |
| JsCoerce.JoinParts | server/server.js:81 | the comma-join an array converts to raises exactly when one of its elements' conversions raises |
| JsCoerce.ToStr | server/server.js:81 | `String(v)` raises exactly when converting `v` raises, and gives a string back unchanged |
| JsCoerce.ToNumber | server/server.js:91 | `Number(v)` raises exactly for such values; a number is itself, `undefined` is NaN, `null` is 0 |
| JsCoerce.Add | src/Components/Estimate/Estimate.jsx:14 | `+` adds two numbers and gives text exactly when either side is text |
| JsCoerce.Round | server/server.js:91 | `Math.round` gives the integer within one half of its argument, halves rounding up |
| JsCoerce.RoundInt | server/server.js:91 | rounding a whole number gives it back |
| Sanitizer.ExtractJson | server/server.js:56-59 | an empty or all-white-space answer gives null |
| Sanitizer.ParseSpan | server/server.js:59-67 | the part after trimming: empty content gives null; with `ExtractJsonSpan` it parses the brace span of the original text |
| Sanitizer.ExtractJsonSpan | server/server.js:58-67 | on the untrimmed text: parses exactly the span from the first `{` to the last `}` when the last `}` comes after the first `{`, and gives null otherwise |
| Sanitizer.BraceSpanOrdered | server/server.js:62-64 | the last `}` follows the first `{` exactly when some `}` follows some `{` |
| Sanitizer.ExtractJsonNull | server/server.js:64 | an answer with no `}` after a `{` gives null |
| Sanitizer.ProseIgnored | server/server.js:61-67 | prose without `{` before the JSON and without `}` after it is ignored: the parse sees the JSON alone |
| Sanitizer.TrimKeepsBraces | server/server.js:58-63 | trimming keeps every brace and shifts the first and last positions by the trimmed prefix |
| Sanitizer.LowerName | server/server.js:81 | `String(item?.name \|\| '')` raises exactly for a truthy unconvertible name; a falsy name gives the empty text |
| Sanitizer.Verdict | server/server.js:80-85 | the filter callback raises exactly when the item's name cannot be converted to text; an item with a falsy name or a text name is kept exactly when the lower-cased name (empty for a falsy one) mentions no denylisted dish or says "visible" or "plate" |
| Sanitizer.DenylistedNameDropped | server/server.js:83-84 | a name mentioning a denylisted dish in any letter case, without "visible" or "plate", is dropped |
| Sanitizer.PlainNameKept | server/server.js:81-84 | a text name that mentions no denylisted dish, in any letter case, is kept |
| Sanitizer.MarkedNameKept | server/server.js:84 | a name saying "visible" or "plate", in any letter case, is kept |
| Sanitizer.UnnamedKept | server/server.js:81-83 | an item without a truthy name is kept |
| Sanitizer.FilterItems | server/server.js:80-85 | `filter` raises exactly when some name cannot be converted; otherwise it keeps order and keeps every accepted item as often as it occurs, and nothing else |
| Sanitizer.GuardItems | server/server.js:79-87 | the filtered list is used unless it is empty, in which case the original list is; so the result is empty only when the input list is |
| Sanitizer.CleanNumber | server/server.js:91 | `Math.round(Number(v) \|\| 0)` is the rounded number `v` denotes, 0 when `v` is absent or not a number, and raises exactly for unconvertible values |
| Sanitizer.CleanMacros | server/server.js:92-98 | the output macros have exactly the four keys, each the rounded input value or 0 |
| Sanitizer.Rewrite | server/server.js:87-100 | the guard writes its five keys and leaves every other key of the record unchanged |
| Sanitizer.VisibilityGuard | server/server.js:75-107 | `INVALID_RESPONSE` exactly when the input or its `items` is falsy; `PROCESSING_FAILED` exactly when a conversion in the `try` block (`CleanRecord`) raises; otherwise the record's items, numbers and defaults as listed, and other keys untouched |
| Sanitizer.FilterKeepsAll | server/server.js:80-85 | a list whose every item is accepted passes the filter unchanged |
| Sanitizer.GuardItemsIdempotent | server/server.js:79-87 | filtering an already filtered list changes nothing |
| Sanitizer.CleanMacrosIdempotent | server/server.js:92-98 | cleaning already cleaned macros changes nothing |
| Sanitizer.GuardSettles | server/server.js:75-107 | every record the guard returns is settled: whole numbers, the four macros, truthy notes and serving, and a list the filter keeps |
| Sanitizer.SettledFixed | server/server.js:75-107 | the guard returns a settled record unchanged |
| Sanitizer.GuardIdempotent | server/server.js:75-107 | guarding a guarded record gives the same record back |
| Gateway.ErrorBody | server/server.js:143 | the error body carries the code and, when given, the detail, and nothing else |
| Gateway.Safe | server/server.js:139-143 | the value the handler inspects: the guard's record, or an object whose `error` is the guard's error kind |
| Gateway.Respond | server/server.js:141-147 | a guard error becomes 400 with its kind; a record with a truthy `error` becomes 400 with that value; any other record is sent with 200 |
| Gateway.Answer | server/server.js:135-147 | the reply to an answered call, in terms of what the guard made of the extracted JSON |
| Gateway.Failure | server/server.js:148-169 | the error code follows the order transient (`Transient`: status 500 or "internal error"), quota (`Quota`: "quota" or 429), key (`BadKey`: "invalid API key" or 401), other; the whole reply in each case: `GEMINI_UNSTABLE` with the try-again hint, `RATE_LIMIT` 429 with the wait-60s hint, `INVALID_API_KEY` 401 with no detail, otherwise `SERVER_ERROR` 500 carrying the error's message |
| Gateway.Estimate | server/server.js:113-170 | the client check comes first, the file check second, each with its exact reply; past both, the reply is `Answer` of the text or `Failure` of the error; 200 exactly when the guard's record has no truthy `error`; each of 400, 401, 429, `GEMINI_UNSTABLE` and `SERVER_ERROR` exactly in its case; every non-200 body has a truthy `error` |
| EstimateView.CaloriesTerm | src/Components/Estimate/Estimate.jsx:14 | `item.calories \|\| 0` raises exactly for a null item |
| EstimateView.TermPrim | src/Components/Estimate/Estimate.jsx:14 | an item's term raises exactly when the item is null or its calories cannot be converted, and is text exactly for text-like calories |
| EstimateView.SumItems | src/Components/Estimate/Estimate.jsx:14 | the reduce raises exactly when some item's term raises, and its result is text exactly when some item's calories are text-like |
| EstimateView.ItemsTotal | src/Components/Estimate/Estimate.jsx:14 | the total is the reduce for an array and 0 for anything else |
| EstimateView.SumItemsNumeric | src/Components/Estimate/Estimate.jsx:14 | when every item is numeric, the reduce equals the reference sum of the items' calories, absent or falsy ones counting 0 |
| EstimateView.CalorieSumSnoc | src/Components/Estimate/Estimate.jsx:14 | the reference sum taken from the front agrees with the reduce's order |
| EstimateView.MacroAmount | src/Components/Estimate/Estimate.jsx:44 | `macros?.key ?? 0` is 0 exactly when the value is absent or null, and the value otherwise |
| EstimateView.MacroKcal | src/Components/Estimate/Estimate.jsx:46 | the calories column raises exactly for unconvertible amounts, and is `Math.round(amount × factor)` for a number |
| EstimateView.MacroRows | src/Components/Estimate/Estimate.jsx:42-65 | four rows: protein ×4, carbs ×4, fat ×9, and fiber's column is the constant 0 |
| EstimateView.ServingLabel | src/Components/Estimate/Estimate.jsx:23 | always truthy; the record's serving when truthy, "Single item" otherwise |
| EstimateView.CaloriesHeadline | src/Components/Estimate/Estimate.jsx:26 | the headline raises exactly for unconvertible calories, is NaN when they are absent, and is the rounded number otherwise |
| EstimateView.QuantityLabel | src/Components/Estimate/Estimate.jsx:85 | `item.quantity ?? 'Standard serving'`: the default exactly when the quantity is absent or null |
| EstimateView.CaloriesCellOf | src/Components/Estimate/Estimate.jsx:87-90 | N/A exactly when the item's calories are absent or null; otherwise a badge with the rounded number |
| EstimateView.ItemsTable | src/Components/Estimate/Estimate.jsx:70-97 | the table, with its count, is shown exactly for a non-empty array, and the count is its length |
| EstimateView.GenericMessage | src/Components/Estimate/Estimate.jsx:143 | `Server error ` followed by digits that read back as the status |
| EstimateView.ErrorMessage | src/Components/Estimate/Estimate.jsx:142-153 | always truthy; the generic text when the body is not JSON; the rate-limit text for a JSON 429; otherwise `error`, then `detail`, then the generic text |
| EstimateView.AfterUpload | src/Components/Estimate/Estimate.jsx:137-162 | the result state is set to the body exactly for an ok status with a JSON body, and the result card's render condition holds exactly when that body is also truthy (lines 12, 355); a non-ok status sets its error message; a failed fetch or a non-JSON ok body sets the upload-failed text |
| ClientServer.ReplyReachesPage | src/Components/Estimate/Estimate.jsx:142-159 | for every reply of the handler: 200 stores the record and meets the card's render condition, 429 shows the rate-limit text, and any other status the handler's error code |
| ClientServer.NoJsonShowsInvalid | server/server.js:138-143 | a generative-model answer without a brace span ends as a 400 `INVALID_RESPONSE`, and the page shows that code |
| ClientServer.WholeMacroKcal | src/Components/Estimate/Estimate.jsx:46-58 | whole grams show exactly 4 or 9 kcal per gram |
| ClientServer.WholeMacroRows | src/Components/Estimate/Estimate.jsx:42-65 | whole protein, carbs and fat grams show exactly 4, 4 and 9 kcal per gram, and fiber 0 |
| ClientServer.SettledDisplayable | server/server.js:91-100 | a settled record has a truthy serving, whole calories and whole macro grams |
| ClientServer.RecordView | src/Components/Estimate/Estimate.jsx:23-64 | such a record shows its own serving and calories, and its macro calories are exactly 4, 4 and 9 times the grams, fiber 0 |
| ClientServer.GuardedRecordView | server/server.js:75-107 | every record the guard returns is settled and displayable: its serving, calories and macros show as the record's own values (its items are `GuardedItemsTotal`'s subject) |
| ClientServer.GuardedItemsTotal | src/Components/Estimate/Estimate.jsx:14 | on a guarded record the card's items total raises exactly when a kept item is null or has truthy calories that cannot be converted |
| Sanitizer.NullItemKept | server/server.js:81-87 | a `null` item has no name and is kept: `{"items": [null]}` is guarded with that item |
| ClientServer.NullItemBreaksCard | src/Components/Estimate/Estimate.jsx:12-14 | an answer whose JSON is `{"items": [null]}` is sent with 200, meets the card's render condition, and the card's items total raises |
| ClientServer.CellsFailWithTotal | src/Components/Estimate/Estimate.jsx:85-90 | an item's calories cell raises exactly when its term in the items total does, and its quantity cell only then |
| ClientServer.GuardedItemsTable | src/Components/Estimate/Estimate.jsx:70-97 | a guarded record's items table is shown exactly when the answer listed at least one item, with the count of kept items, at most the number listed |

## Left out

- `JSON.parse`, `Number(string)` and `String(number)` are oracles in `Runtime`. The Dafny model does not define number syntax or number formatting.
- JavaScript numbers are unbounded reals. `Infinity`, overflow and floating-point rounding of `amount × factor` are not modelled.
- JsText.ToLower: maps ASCII letters only. The regular expression's `/i` flag is modelled the same way, so non-ASCII case folding is not covered.
- JSON objects are maps. Key order and duplicate keys, which `JSON.parse` resolves, are not modelled.
- Gateway.Failure: `e.message` is taken to be a string or absent. A non-string message reaching `includes` is not modelled.
- The retry call's content and its answer are not modelled. Only whether it raised matters to the handler.
- Out of scope:
  - the health endpoint;
  - the prompt text;
  - the Express, multer and CORS wiring;
  - logging;
  - the camera and `resizeImage`;
  - the `%DV` column;
  - the `Math.round(itemsTotal)` of the items summary (line 98 of `Estimate.jsx`), which shows `NaN` for a text total;
  - the notes paragraph;
  - React rendering and state, other than the `error`/`result` values `handleImageUpload` sets and the result card's render condition.
- The 60-second wait hint is just a constant; it has no timing behaviour.
- EstimateView.SumItems: the total is given as a number only when every item is numeric (`SumItemsNumeric`). For text-like calories the contract says only that the result is text, not which text.
- EstimateView.AfterUpload: a falsy ok body (`null`, `false`, `""`, `0`) is stored as the result and shows neither a card nor an error; the bare text `0` that React prints for a `0` result is not modelled.
- Text is a sequence of Unicode scalar values, while JavaScript strings are UTF-16 code units: `indexOf`/`lastIndexOf` positions differ after characters outside the Basic Multilingual Plane (the cut span is the same text), and a lone surrogate in an answer cannot be represented.
- EstimateView.CaloriesHeadline: states the headline for a numeric or absent value only. For other values it is `Math.round` of whatever the `Number` oracle returns.

=== FILE: client_server.dfy ===
/** The handler's reply as the page receives it: which message or which
    numbers the user ends up seeing. */
module ClientServer {
  import opened Outcomes
  import opened JsValue
  import opened JsCoerce
  import opened Sanitizer
  import opened Gateway
  import opened EstimateView

  /** What the page shows for a reply of the handler. */
  function Shown(r: Reply): View
  {
    AfterUpload(Response(r.status, Some(r.body)))
  }

  /** Every reply reaches the page as the handler meant it: a 200 stores the
      record and meets the card's render condition (whether the card's own
      computations succeed is `GuardedItemsTotal`'s subject), a 429 shows the
      fixed rate-limit text, and every other status the error code the handler
      chose. */
  lemma ReplyReachesPage(rt: Runtime, clientReady: bool, hasFile: bool, upstream: Upstream, retry: Retry)
    ensures var r := Estimate(rt, clientReady, hasFile, upstream, retry);
      && (r.status == 200 ==> Shown(r) == ShowResult(r.body) && ResultCard(Shown(r)))
      && (r.status == 429 ==> Shown(r) == ShowError(JStr(RateLimitMessage)))
      && (r.status != 200 && r.status != 429 ==> Shown(r) == ShowError(r.body.fields["error"]))
  {
    var r := Estimate(rt, clientReady, hasFile, upstream, retry);
    if r.status != 200 {
      assert IsTruthy(Member(r.body, "error"));
      assert !StatusOk(r.status);
    }
  }

  /** A generative-model answer without a `{ ... }` span ends as a 400 whose code the
      page shows: INVALID_RESPONSE. */
  lemma NoJsonShowsInvalid(rt: Runtime, text: string)
    requires !HasBraceSpan(text)
    ensures Estimate(rt, true, true, Answered(text), RetryRaised) == Reply(400, ErrorBody(JStr(InvalidResponse), None))
    ensures Shown(Estimate(rt, true, true, Answered(text), RetryRaised)) == ShowError(JStr(InvalidResponse))
  {
    ExtractJsonNull(rt, text);
    ReplyReachesPage(rt, true, true, Answered(text), RetryRaised);
  }

  /** A rounded macro shows exactly `factor` kcal per gram. */
  lemma WholeMacroKcal(rt: Runtime, grams: int, factor: int)
    requires factor == 4 || factor == 9
    ensures MacroKcal(rt, JNum(grams as real), factor as real) == Ok(Finite((grams * factor) as real))
  {
    assert (grams as real) * (factor as real) == (grams * factor) as real;
    RoundInt(grams * factor);
  }

  /** Whole gram amounts show exactly 4, 4 and 9 kcal per gram, fiber 0. */
  lemma WholeMacroRows(rt: Runtime, macros: Json, protein: int, carbs: int, fat: int)
    requires Member(macros, "protein_g") == Some(JNum(protein as real))
    requires Member(macros, "carbs_g") == Some(JNum(carbs as real))
    requires Member(macros, "fat_g") == Some(JNum(fat as real))
    ensures var rows := MacroRows(rt, Some(macros));
      && rows[0].kcal == Ok(Finite((4 * protein) as real))
      && rows[1].kcal == Ok(Finite((4 * carbs) as real))
      && rows[2].kcal == Ok(Finite((9 * fat) as real))
      && rows[3].kcal == Ok(Finite(0.0))
  {
    var rows := MacroRows(rt, Some(macros));
    assert rows[0].amount == JNum(protein as real);
    assert rows[1].amount == JNum(carbs as real);
    assert rows[2].amount == JNum(fat as real);
    WholeMacroKcal(rt, protein, 4);
    WholeMacroKcal(rt, carbs, 4);
    WholeMacroKcal(rt, fat, 9);
  }

  /** `v` is a number with no fractional part. */
  ghost predicate WholeNumber(v: Json)
  {
    v.JNum? && v.n == v.n.Floor as real
  }

  /** What the result view needs of a record to show it without falling back
      on its own defaults: a truthy serving, whole calories, and whole protein,
      carbs and fat grams in a `macros` object. */
  ghost predicate Displayable(rec: Json)
  {
    && rec.JObj? && {"serving", "calories", "macros"} <= rec.fields.Keys
    && Truthy(rec.fields["serving"])
    && WholeNumber(rec.fields["calories"])
    && rec.fields["macros"].JObj? && MacroKeys <= rec.fields["macros"].fields.Keys
    && WholeNumber(rec.fields["macros"].fields["protein_g"])
    && WholeNumber(rec.fields["macros"].fields["carbs_g"])
    && WholeNumber(rec.fields["macros"].fields["fat_g"])
  }

  /** A record the guard has settled is displayable. */
  lemma SettledDisplayable(rt: Runtime, rec: Json)
    requires Settled(rt, rec)
    ensures Displayable(rec)
  {
    var macros := rec.fields["macros"];
    var m := macros.fields;
    assert RoundedNumber(rt, Member(macros, "protein_g"), m["protein_g"]);
    assert RoundedNumber(rt, Member(macros, "carbs_g"), m["carbs_g"]);
    assert RoundedNumber(rt, Member(macros, "fat_g"), m["fat_g"]);
  }

  /** The view of a displayable record: the serving line shows the record's
      value (the view's own default never applies), the headline is the
      record's calories, and each macro's calories column is exactly its grams
      times 4, 4 and 9, with fiber at 0. */
  lemma RecordView(rt: Runtime, rec: Json)
    requires Displayable(rec)
    ensures ServingLabel(Member(rec, "serving")) == rec.fields["serving"]
    ensures CaloriesHeadline(rt, Member(rec, "calories")) == Ok(Finite(rec.fields["calories"].n))
    ensures var rows := MacroRows(rt, Member(rec, "macros"));
      var m := rec.fields["macros"].fields;
      && rows[0].kcal == Ok(Finite(4.0 * m["protein_g"].n))
      && rows[1].kcal == Ok(Finite(4.0 * m["carbs_g"].n))
      && rows[2].kcal == Ok(Finite(9.0 * m["fat_g"].n))
      && rows[3].kcal == Ok(Finite(0.0))
  {
    RoundInt(rec.fields["calories"].n.Floor);
    var macros := rec.fields["macros"];
    var m := macros.fields;
    WholeMacroRows(rt, macros, m["protein_g"].n.Floor, m["carbs_g"].n.Floor, m["fat_g"].n.Floor);
  }

  /** Every record the guard produces is settled and displayable, so the view
      shows it as `RecordView` describes. */
  lemma GuardedRecordView(rt: Runtime, parsed: Option<Json>)
    requires VisibilityGuard(rt, parsed).Guarded?
    ensures Settled(rt, VisibilityGuard(rt, parsed).record)
    ensures Displayable(VisibilityGuard(rt, parsed).record)
  {
    GuardSettles(rt, parsed);
    SettledDisplayable(rt, VisibilityGuard(rt, parsed).record);
  }

  /** The guard screens item names only, so it lets through null items and
      items whose calories cannot be converted. On a guarded record the card's
      items total raises exactly when one of the kept items is such an item. */
  lemma GuardedItemsTotal(rt: Runtime, parsed: Option<Json>)
    requires VisibilityGuard(rt, parsed).Guarded?
    ensures var rec := VisibilityGuard(rt, parsed).record;
      var kept := rec.fields["items"].elems;
      ItemsTotal(rt, Member(rec, "items")).Threw? <==> exists i :: 0 <= i < |kept| && TermThrows(kept[i])
  {
  }

  /** A concrete case of `GuardedItemsTotal`: an answer whose JSON is
      `{"items": [null]}` is sent with status 200, the page stores it and meets
      the card's render condition, and the card's items total then raises. */
  lemma NullItemBreaksCard(rt: Runtime, text: string)
    requires ExtractJson(rt, text) == Some(JObj(map["items" := JArr([JNull])]))
    ensures var r := Estimate(rt, true, true, Answered(text), RetryRaised);
      && r.status == 200 && Shown(r) == ShowResult(r.body) && ResultCard(Shown(r))
      && ItemsTotal(rt, Member(r.body, "items")).Threw?
  {
    var parsed := ExtractJson(rt, text);
    NullItemKept(rt, parsed.value);
    var g := VisibilityGuard(rt, parsed);
    assert !IsTruthy(Member(g.record, "error"));
    assert TermThrows(JNull);
    GuardedItemsTotal(rt, parsed);
    ReplyReachesPage(rt, true, true, Answered(text), RetryRaised);
  }

  /** The items table's cells fail on the same items as the items total: an
      item's calories cell raises exactly when its term in the total does, and
      its quantity cell only then. */
  lemma CellsFailWithTotal(rt: Runtime, item: Json)
    ensures CaloriesCellOf(rt, item).Threw? <==> TermThrows(item)
    ensures QuantityLabel(item).Threw? ==> TermThrows(item)
  {
  }

  /** The items table of a guarded record is shown exactly when the answer
      listed at least one item (the guard never empties a list), and its
      count is that of the kept items, at most the number listed. */
  lemma GuardedItemsTable(rt: Runtime, parsed: Option<Json>)
    requires VisibilityGuard(rt, parsed).Guarded?
    ensures var rec := VisibilityGuard(rt, parsed).record;
      var listed := ItemList(parsed.value.fields["items"]);
      var table := ItemsTable(Member(rec, "items"));
      && (table.Some? <==> |listed| > 0)
      && (table.Some? ==> table.value == |rec.fields["items"].elems| <= |listed|)
  {
    var rec := VisibilityGuard(rt, parsed).record;
    var listed := ItemList(parsed.value.fields["items"]);
    SubsequenceLength(rec.fields["items"].elems, listed);
  }
}

=== FILE: estimate_view.dfy ===
/** The values the result view derives from the server's record, and the
    message the upload handler shows for a failed request
    (src/Components/Estimate/Estimate.jsx). A value whose computation raises a
    TypeError while rendering is `Threw`. */
module EstimateView {
  import opened Outcomes
  import opened JsText
  import opened JsValue
  import opened JsCoerce

  // ---------------------------------------------------------------------------
  // itemsTotal

  /** `item.calories || 0`; reading a property of `null` raises. */
  function CaloriesTerm(item: Json): (r: Outcome<Json>)
    ensures r.Threw? <==> item.JNull?
    ensures r.Ok? ==> r.value == Or(Member(item, "calories"), JNum(0.0))
  {
    if item.JNull? then Threw else Ok(Or(Member(item, "calories"), JNum(0.0)))
  }

  /** The item makes the running sum raise: it is null, or its truthy calories
      value cannot be converted to a primitive. */
  ghost predicate TermThrows(item: Json)
  {
    item.JNull? || (IsTruthy(Member(item, "calories")) && Poisoned(Member(item, "calories").value))
  }

  /** The item's calories value is added as text: it is truthy and its primitive
      is a string (a string, an array or an object). */
  predicate TextTerm(item: Json)
  {
    && !item.JNull?
    && IsTruthy(Member(item, "calories"))
    && var v := Member(item, "calories").value;
       v.JStr? || v.JArr? || v.JObj?
  }

  /** The primitive the sum adds for one item. */
  function TermPrim(rt: Runtime, item: Json): (r: Outcome<Prim>)
    ensures r.Threw? <==> TermThrows(item)
    ensures r.Ok? ==> (r.value.PStr? <==> TextTerm(item))
  {
    match CaloriesTerm(item)
    case Threw => Threw
    case Ok(v) => ToPrimitive(rt, v)
  }

  /** `items.reduce((sum, item) => sum + (item.calories || 0), 0)`, a left fold
      that starts from the number 0. Once a text value has been added the sum
      is text, and every later addition concatenates. */
  function SumItems(rt: Runtime, items: seq<Json>): (r: Outcome<Prim>)
    ensures r.Threw? <==> exists i :: 0 <= i < |items| && TermThrows(items[i])
    ensures r.Ok? ==> (r.value.PStr? <==> exists i :: 0 <= i < |items| && TextTerm(items[i]))
    ensures r.Ok? ==> (r.value.PNum? || r.value.PStr?)
    decreases |items|
  {
    if |items| == 0 then Ok(PNum(0.0))
    else
      var init := items[..|items| - 1];
      var last := items[|items| - 1];
      assert forall i :: 0 <= i < |items| - 1 ==> init[i] == items[i];
      assert forall i :: 0 <= i < |items| ==> items[i] == last || (i < |items| - 1 && items[i] == init[i]);
      match SumItems(rt, init)
      case Threw => Threw
      case Ok(sum) =>
        match TermPrim(rt, last)
        case Threw => Threw
        case Ok(p) => Ok(Add(rt, sum, p))
  }

  /** `itemsTotal`: the sum over `items` when it is an array, 0 otherwise. */
  function ItemsTotal(rt: Runtime, items: Option<Json>): (r: Outcome<Prim>)
    ensures items.Some? && items.value.JArr? ==> r == SumItems(rt, items.value.elems)
    ensures !(items.Some? && items.value.JArr?) ==> r == Ok(PNum(0.0))
  {
    if items.Some? && items.value.JArr? then SumItems(rt, items.value.elems) else Ok(PNum(0.0))
  }

  /** The number an item contributes when no text is involved: its calories
      when they are a number, 1 for `true`, and 0 when absent or falsy. */
  function CalorieValue(item: Json): real
  {
    match Member(item, "calories")
    case Some(JNum(n)) => n
    case Some(JBool(b)) => if b then 1.0 else 0.0
    case _ => 0.0
  }

  /** The reference sum, taken from the front. */
  function CalorieSum(items: seq<Json>): real
  {
    if |items| == 0 then 0.0 else CalorieValue(items[0]) + CalorieSum(items[1..])
  }

  /** The item takes part in a numeric sum: it is not null and its calories are
      absent, falsy, a number or `true`. */
  predicate NumericTerm(item: Json)
  {
    && !item.JNull?
    && (!IsTruthy(Member(item, "calories"))
        || Member(item, "calories").value.JNum? || Member(item, "calories").value.JBool?)
  }

  /** Summing from the back agrees with the reference sum from the front. */
  lemma {:induction false} CalorieSumSnoc(items: seq<Json>, x: Json)
    ensures CalorieSum(items + [x]) == CalorieSum(items) + CalorieValue(x)
    decreases |items|
  {
    if |items| > 0 {
      assert (items + [x])[1..] == items[1..] + [x];
      CalorieSumSnoc(items[1..], x);
    }
  }

  /** A numeric item adds its `CalorieValue` to a numeric sum. */
  lemma NumericTermPrim(rt: Runtime, item: Json, sum: real)
    requires NumericTerm(item)
    ensures TermPrim(rt, item).Ok? && !TermPrim(rt, item).value.PStr?
    ensures Add(rt, PNum(sum), TermPrim(rt, item).value) == PNum(sum + CalorieValue(item))
  {
  }

  /** When every item is numeric, the total is the number `CalorieSum` gives:
      each item's calories, absent or falsy ones counted as 0. */
  lemma {:induction false} SumItemsNumeric(rt: Runtime, items: seq<Json>)
    requires forall i :: 0 <= i < |items| ==> NumericTerm(items[i])
    ensures SumItems(rt, items) == Ok(PNum(CalorieSum(items)))
    decreases |items|
  {
    if |items| > 0 {
      var init := items[..|items| - 1];
      var last := items[|items| - 1];
      assert items == init + [last];
      SumItemsNumeric(rt, init);
      NumericTermPrim(rt, last, CalorieSum(init));
      CalorieSumSnoc(init, last);
    }
  }

  // ---------------------------------------------------------------------------
  // macros table

  /** Protein and carbohydrate give 4 kcal per gram, fat 9. */
  const ProteinFactor: real := 4.0
  const CarbsFactor: real := 4.0
  const FatFactor: real := 9.0

  /** `macros?.key ?? 0`: the amount column. */
  function MacroAmount(macros: Option<Json>, key: string): (r: Json)
    ensures Nullish(MemberOf(macros, key)) ==> r == JNum(0.0)
    ensures !Nullish(MemberOf(macros, key)) ==> Some(r) == MemberOf(macros, key)
  {
    var v := MemberOf(macros, key);
    if Nullish(v) then JNum(0.0) else v.value
  }

  /** `Math.round(amount * factor)`: the calories column; NaN when the amount
      is not a number. */
  function MacroKcal(rt: Runtime, amount: Json, factor: real): (r: Outcome<Num>)
    ensures r.Threw? <==> Poisoned(amount)
    ensures amount.JNum? ==> r == Ok(Finite(Round(amount.n * factor) as real))
  {
    var n := ToNumber(rt, Some(amount));
    if n.Threw? then Threw
    else if n.value.NaN? then Ok(NaN)
    else
      var x := n.value.x;
      assert amount.JNum? ==> x == amount.n && Round(x * factor) == Round(amount.n * factor);
      Ok(Finite(Round(x * factor) as real))
  }

  /** One row of the macros table. */
  datatype MacroRow = MacroRow(amount: Json, kcal: Outcome<Num>)

  /** The four rows: protein, carbohydrate and fat with their factors, and
      fiber, whose calories column is the constant 0. */
  function MacroRows(rt: Runtime, macros: Option<Json>): (r: seq<MacroRow>)
    ensures |r| == 4
    ensures r[0].amount == MacroAmount(macros, "protein_g") && r[1].amount == MacroAmount(macros, "carbs_g")
    ensures r[2].amount == MacroAmount(macros, "fat_g") && r[3].amount == MacroAmount(macros, "fiber_g")
    ensures r[0].kcal == MacroKcal(rt, r[0].amount, ProteinFactor)
    ensures r[1].kcal == MacroKcal(rt, r[1].amount, CarbsFactor)
    ensures r[2].kcal == MacroKcal(rt, r[2].amount, FatFactor)
    ensures r[3].kcal == Ok(Finite(0.0))
  {
    var protein := MacroAmount(macros, "protein_g");
    var carbs := MacroAmount(macros, "carbs_g");
    var fat := MacroAmount(macros, "fat_g");
    var fiber := MacroAmount(macros, "fiber_g");
    [ MacroRow(protein, MacroKcal(rt, protein, ProteinFactor)),
      MacroRow(carbs, MacroKcal(rt, carbs, CarbsFactor)),
      MacroRow(fat, MacroKcal(rt, fat, FatFactor)),
      MacroRow(fiber, Ok(Finite(0.0))) ]
  }

  // ---------------------------------------------------------------------------
  // display defaults

  const SingleItem: string := "Single item"
  const StandardServing: string := "Standard serving"

  /** `serving || 'Single item'`: the line under the title. */
  function ServingLabel(serving: Option<Json>): (r: Json)
    ensures Truthy(r)
    ensures IsTruthy(serving) ==> r == serving.value
    ensures !IsTruthy(serving) ==> r == JStr(SingleItem)
  {
    Or(serving, JStr(SingleItem))
  }

  /** `Math.round(calories)`: the headline number. */
  function CaloriesHeadline(rt: Runtime, calories: Option<Json>): (r: Outcome<Num>)
    ensures r.Threw? <==> calories.Some? && Poisoned(calories.value)
    ensures calories.None? ==> r == Ok(NaN)
    ensures calories.Some? && calories.value.JNum? ==> r == Ok(Finite(Round(calories.value.n) as real))
  {
    match ToNumber(rt, calories)
    case Threw => Threw
    case Ok(n) => Ok(RoundNum(n))
  }

  /** `item.quantity ?? 'Standard serving'`; reading a property of `null` raises. */
  function QuantityLabel(item: Json): (r: Outcome<Json>)
    ensures r.Threw? <==> item.JNull?
    ensures r.Ok? && Nullish(Member(item, "quantity")) ==> r.value == JStr(StandardServing)
    ensures r.Ok? && !Nullish(Member(item, "quantity")) ==> Some(r.value) == Member(item, "quantity")
  {
    if item.JNull? then Threw
    else
      var q := Member(item, "quantity");
      Ok(if Nullish(q) then JStr(StandardServing) else q.value)
  }

  /** An item's calories cell: a badge with the rounded calories, or N/A. */
  datatype CaloriesCell = Badge(kcal: Num) | NotAvailable

  /** `item.calories != null ? Math.round(item.calories) kcal : N/A`. */
  function CaloriesCellOf(rt: Runtime, item: Json): (r: Outcome<CaloriesCell>)
    ensures r.Threw? <==> item.JNull? || (!Nullish(Member(item, "calories")) && Poisoned(Member(item, "calories").value))
    ensures r.Ok? ==> (r.value == NotAvailable <==> Nullish(Member(item, "calories")))
    ensures r.Ok? && Member(item, "calories").Some? && Member(item, "calories").value.JNum? ==>
      r.value == Badge(Finite(Round(Member(item, "calories").value.n) as real))
  {
    if item.JNull? then Threw
    else
      var c := Member(item, "calories");
      if Nullish(c) then Ok(NotAvailable)
      else
        match ToNumber(rt, c)
        case Threw => Threw
        case Ok(n) => Ok(Badge(RoundNum(n)))
  }

  /** The items table: shown, with its "N detected" count, only for a
      non-empty array. */
  function ItemsTable(items: Option<Json>): (r: Option<nat>)
    ensures r.Some? <==> items.Some? && items.value.JArr? && |items.value.elems| > 0
    ensures r.Some? ==> r.value == |items.value.elems| && r.value > 0
  {
    if items.Some? && items.value.JArr? && |items.value.elems| > 0 then Some(|items.value.elems|) else None
  }

  // ---------------------------------------------------------------------------
  // handleImageUpload

  const RateLimitMessage: string := "Service busy (rate limit). Retry shortly."
  const UploadFailedMessage: string := "Failed to estimate nutrition. Try another photo."

  /** `Server error <status>`. */
  function GenericMessage(status: nat): (r: string)
    ensures |r| > |"Server error "| && r[..|"Server error "|] == "Server error "
    ensures forall i :: |"Server error "| <= i < |r| ==> IsDigit(r[i])
    ensures DigitsValue(r[|"Server error "|..]) == status
  {
    var prefix := "Server error ";
    var digits := Decimal(status);
    DecimalRoundTrip(status);
    assert (prefix + digits)[|prefix|..] == digits;
    prefix + digits
  }

  /** The message for a response that is not ok; `body` is None when the body
      is not JSON. */
  function ErrorMessage(status: nat, body: Option<Json>): (r: Json)
    ensures Truthy(r)
    ensures body.None? ==> r == JStr(GenericMessage(status))
    ensures body.Some? && status == 429 ==> r == JStr(RateLimitMessage)
    ensures body.Some? && status != 429 ==>
      r == if IsTruthy(MemberOf(body, "error")) then MemberOf(body, "error").value
           else if IsTruthy(MemberOf(body, "detail")) then MemberOf(body, "detail").value
           else JStr(GenericMessage(status))
  {
    var message := JStr(GenericMessage(status));
    if body.None? then message
    else if status == 429 then JStr(RateLimitMessage)
    else Or(MemberOf(body, "error"), Or(MemberOf(body, "detail"), message))
  }

  /** What `fetch` delivered: nothing (it, or the image compression before
      it, raised), or a response with its status and its body as JSON (None when
      the body is not JSON). */
  datatype Fetched = FetchFailed | Response(status: nat, body: Option<Json>)

  /** The state `handleImageUpload` leaves after an upload: the message given
      to `setError`, or the value given to `setResult`. */
  datatype View = ShowError(message: Json) | ShowResult(data: Json)

  /** The card's render condition holds: the page renders `NutritionResult`
      only for a truthy result, and it returns null for a falsy one. Rendering
      can still raise inside the card (see `ItemsTotal`). */
  predicate ResultCard(v: View)
  {
    v.ShowResult? && Truthy(v.data)
  }

  /** A status in 200-299. */
  predicate StatusOk(status: nat)
  {
    200 <= status <= 299
  }

  /** `handleImageUpload` after the request: an error message, or the body
      stored as the result. A falsy ok body is stored but shows no card, and
      no error either. */
  function AfterUpload(f: Fetched): (r: View)
    ensures r.ShowResult? <==> f.Response? && StatusOk(f.status) && f.body.Some?
    ensures r.ShowResult? ==> r.data == f.body.value
    ensures ResultCard(r) <==> f.Response? && StatusOk(f.status) && f.body.Some? && Truthy(f.body.value)
    ensures r.ShowError? ==> Truthy(r.message)
    ensures f.FetchFailed? || (StatusOk(f.status) && f.body.None?) ==> r == ShowError(JStr(UploadFailedMessage))
    ensures f.Response? && !StatusOk(f.status) ==> r == ShowError(ErrorMessage(f.status, f.body))
  {
    match f
    case FetchFailed => ShowError(JStr(UploadFailedMessage))
    case Response(status, body) =>
      if !StatusOk(status) then ShowError(ErrorMessage(status, body))
      else if body.None? then ShowError(JStr(UploadFailedMessage))
      else ShowResult(body.value)
  }
}

=== FILE: gateway.dfy ===
/** The decision logic of the `POST /api/estimate` handler (server/server.js):
    which HTTP status and which error code a request ends in, given whether the
    generative-model client exists, whether a file came with the request, what the generative
    model answered or raised, and how the retry went. The generative-model call itself is an
    input. */
module Gateway {
  import opened Outcomes
  import opened JsText
  import opened JsValue
  import opened JsCoerce
  import opened Sanitizer

  /** What the generative-model call raised: the error's `status` and `message`, either of
      which may be undefined. */
  datatype UpstreamError = UpstreamError(status: Option<int>, message: Option<string>)

  /** The generative-model call: the text of its answer, or the error it raised. */
  datatype Upstream = Answered(text: string) | Raised(error: UpstreamError)

  /** The second generative-model call made after a transient error: it raised, or it
      returned (its result is never used). */
  datatype Retry = RetryRaised | RetryReturned

  /** An HTTP reply: status code and JSON body. */
  datatype Reply = Reply(status: nat, body: Json)

  const GeminiUnavailable: string := "GEMINI_UNAVAILABLE"
  const NoImage: string := "NO_IMAGE"
  const AnalysisFailed: string := "ANALYSIS_FAILED"
  const GeminiUnstable: string := "GEMINI_UNSTABLE"
  const RateLimit: string := "RATE_LIMIT"
  const InvalidApiKey: string := "INVALID_API_KEY"
  const ServerError: string := "SERVER_ERROR"

  const KeyHint: string := "Check GOOGLE_API_KEY in .env"
  const UnstableHint: string := "Model temporarily unavailable; try again"
  const RateHint: string := "Too many requests; wait 60s"

  /** `{ error: code, detail }`; an undefined detail is left out of the JSON. */
  function ErrorBody(code: Json, detail: Option<string>): (r: Json)
    ensures r.JObj? && Member(r, "error") == Some(code)
    ensures Member(r, "detail") == if detail.Some? then Some(JStr(detail.value)) else None
    ensures r.fields.Keys <= {"error", "detail"}
  {
    if detail.Some? then JObj(map["error" := code, "detail" := JStr(detail.value)])
    else JObj(map["error" := code])
  }

  /** `e.message?.includes(word)`. */
  predicate MessageHas(e: UpstreamError, word: string)
  {
    e.message.Some? && Contains(e.message.value, word)
  }

  /** The error is taken for a transient server-side failure and retried. */
  predicate Transient(e: UpstreamError)
  {
    e.status == Some(500) || MessageHas(e, "internal error")
  }

  /** The error is taken for exhausted quota. */
  predicate Quota(e: UpstreamError)
  {
    MessageHas(e, "quota") || e.status == Some(429)
  }

  /** The error is taken for a rejected API key. */
  predicate BadKey(e: UpstreamError)
  {
    MessageHas(e, "invalid API key") || e.status == Some(401)
  }

  /** What `visibilityGuard` hands back, as the JSON value the handler inspects. */
  function Safe(g: GuardResult): (r: Json)
    ensures g.Rejected? ==> r.JObj? && Member(r, "error") == Some(JStr(g.kind))
    ensures g.Guarded? ==> r == g.record
  {
    match g
    case Rejected(kind) => JObj(map["error" := JStr(kind)])
    case Guarded(record) => record
  }

  /** The reply to the guard's result. A record the guard lets through is
      still refused when it carries a truthy `error` property of its own: the
      handler cannot tell it from the guard's error object, and passes the
      value on as the error code. */
  function Respond(g: GuardResult): (r: Reply)
    ensures r.status == 200 || r.status == 400
    ensures r.status == 400 ==> IsTruthy(Member(r.body, "error")) || (g.Guarded? && !Truthy(g.record))
    ensures g.Rejected? && |g.kind| > 0 ==> r == Reply(400, ErrorBody(JStr(g.kind), None))
    ensures g.Guarded? && IsTruthy(Member(g.record, "error")) ==>
      r == Reply(400, ErrorBody(g.record.fields["error"], None))
    ensures g.Guarded? && Truthy(g.record) && !IsTruthy(Member(g.record, "error")) ==> r == Reply(200, g.record)
  {
    var safe := Safe(g);
    if !Truthy(safe) || IsTruthy(Member(safe, "error")) then
      Reply(400, ErrorBody(Or(Member(safe, "error"), JStr(AnalysisFailed)), None))
    else Reply(200, safe)
  }

  /** The reply to an answered generative-model call. */
  function Answer(rt: Runtime, text: string): (r: Reply)
    ensures r.status == 200 || r.status == 400
    ensures r.status == 400 ==> IsTruthy(Member(r.body, "error"))
    ensures var g := VisibilityGuard(rt, ExtractJson(rt, text));
      && (g.Rejected? ==> r == Reply(400, ErrorBody(JStr(g.kind), None)))
      && (g.Guarded? && IsTruthy(Member(g.record, "error")) ==>
            r == Reply(400, ErrorBody(g.record.fields["error"], None)))
      && (g.Guarded? && !IsTruthy(Member(g.record, "error")) ==> r == Reply(200, g.record))
  {
    var g := VisibilityGuard(rt, ExtractJson(rt, text));
    assert g.Guarded? ==> Truthy(g.record);
    Respond(g)
  }

  /** The `catch` branch: the reply to a raised generative-model call. */
  function Failure(e: UpstreamError, retry: Retry): (r: Reply)
    ensures r.status == 500 || r.status == 429 || r.status == 401
    ensures Member(r.body, "error") == Some(JStr(
      if Transient(e) && retry == RetryRaised then GeminiUnstable
      else if !Transient(e) && Quota(e) then RateLimit
      else if !Transient(e) && BadKey(e) then InvalidApiKey
      else ServerError))
    ensures r.status == 429 <==> !Transient(e) && Quota(e)
    ensures r.status == 401 <==> !Transient(e) && !Quota(e) && BadKey(e)
    ensures Member(r.body, "error") == Some(JStr(ServerError)) ==>
      r.status == 500 && Member(r.body, "detail") == if e.message.Some? then Some(JStr(e.message.value)) else None
    // the whole reply in each case
    ensures Transient(e) && retry == RetryRaised ==> r == Reply(500, ErrorBody(JStr(GeminiUnstable), Some(UnstableHint)))
    ensures !Transient(e) && Quota(e) ==> r == Reply(429, ErrorBody(JStr(RateLimit), Some(RateHint)))
    ensures !Transient(e) && !Quota(e) && BadKey(e) ==> r == Reply(401, ErrorBody(JStr(InvalidApiKey), None))
    ensures (Transient(e) && retry == RetryReturned) || (!Transient(e) && !Quota(e) && !BadKey(e)) ==>
      r == Reply(500, ErrorBody(JStr(ServerError), e.message))
  {
    if Transient(e) && retry == RetryRaised then
      Reply(500, ErrorBody(JStr(GeminiUnstable), Some(UnstableHint)))
    else if Transient(e) then
      // the retry returned: control falls out of the if-chain to the generic reply
      Reply(500, ErrorBody(JStr(ServerError), e.message))
    else if Quota(e) then Reply(429, ErrorBody(JStr(RateLimit), Some(RateHint)))
    else if BadKey(e) then Reply(401, ErrorBody(JStr(InvalidApiKey), None))
    else Reply(500, ErrorBody(JStr(ServerError), e.message))
  }

  /** `code` is the reply's error code. */
  predicate HasCode(r: Reply, code: string)
  {
    Member(r.body, "error") == Some(JStr(code))
  }

  /** The answered call ended in a record the handler sends. */
  predicate Accepted(rt: Runtime, upstream: Upstream)
  {
    upstream.Answered? &&
    var g := VisibilityGuard(rt, ExtractJson(rt, upstream.text));
    g.Guarded? && !IsTruthy(Member(g.record, "error"))
  }

  /** The whole handler: the client check, the file check, then the generative-model call. */
  function Estimate(rt: Runtime, clientReady: bool, hasFile: bool, upstream: Upstream, retry: Retry): (r: Reply)
    ensures r.status in {200, 400, 401, 429, 500}
    ensures r.status != 200 ==> IsTruthy(Member(r.body, "error"))
    // the client check comes first, the file check second
    ensures !clientReady ==> r == Reply(500, ErrorBody(JStr(GeminiUnavailable), Some(KeyHint)))
    ensures r.status == 500 && HasCode(r, GeminiUnavailable) <==> !clientReady
    ensures clientReady && !hasFile ==> r == Reply(400, ErrorBody(JStr(NoImage), None))
    // an answer
    ensures r.status == 200 <==> clientReady && hasFile && Accepted(rt, upstream)
    ensures r.status == 200 ==> r.body == VisibilityGuard(rt, ExtractJson(rt, upstream.text)).record
    ensures r.status == 400 <==> clientReady && (!hasFile || (upstream.Answered? && !Accepted(rt, upstream)))
    // an error raised by the generative-model call
    ensures r.status == 500 && HasCode(r, GeminiUnstable) <==>
      clientReady && hasFile && upstream.Raised? && Transient(upstream.error) && retry == RetryRaised
    ensures r.status == 429 <==>
      clientReady && hasFile && upstream.Raised? && !Transient(upstream.error) && Quota(upstream.error)
    ensures r.status == 401 <==>
      clientReady && hasFile && upstream.Raised? && !Transient(upstream.error) && !Quota(upstream.error)
      && BadKey(upstream.error)
    // past both checks, the reply is the answer's or the failure's
    ensures clientReady && hasFile && upstream.Answered? ==> r == Answer(rt, upstream.text)
    ensures clientReady && hasFile && upstream.Raised? ==> r == Failure(upstream.error, retry)
    ensures r.status == 500 && HasCode(r, ServerError) <==>
      && clientReady && hasFile && upstream.Raised?
      && (if Transient(upstream.error) then retry == RetryReturned
          else !Quota(upstream.error) && !BadKey(upstream.error))
  {
    if !clientReady then Reply(500, ErrorBody(JStr(GeminiUnavailable), Some(KeyHint)))
    else if !hasFile then Reply(400, ErrorBody(JStr(NoImage), None))
    else
      match upstream
      case Answered(text) => Answer(rt, text)
      case Raised(e) => Failure(e, retry)
  }
}

=== FILE: js_coerce.dfy ===
/** JavaScript's conversions of JSON-shaped values to primitives, strings and
    numbers, and `Math.round`. The two conversions between text and numbers
    that JavaScript performs (`Number(string)` and `String(number)`), and
    `JSON.parse` itself, are left abstract as the fields of `Runtime`. */
module JsCoerce {
  import opened Outcomes
  import opened JsValue

  /** A JavaScript number: a finite real or NaN. */
  datatype Num = Finite(x: real) | NaN

  /** A JavaScript primitive as reached from a JSON value. */
  datatype Prim = PNull | PBool(b: bool) | PNum(x: real) | PStr(s: string)

  /** The engine operations this project does not re-implement. */
  datatype Runtime = Runtime(
    parse: string -> Option<Json>,   // JSON.parse; None when it throws
    numberOf: string -> Num,         // Number(s) for a string s
    stringOf: real -> string)        // String(x) for a finite number x

  /** A JSON value whose conversion to a primitive raises a TypeError: an object
      that owns a `toString` property (which then is not callable, and
      `Object.prototype.valueOf` returns the object itself), or an array that
      holds such a value at any depth. */
  ghost predicate Poisoned(v: Json)
  {
    match v
    case JObj(fields) => "toString" in fields
    case JArr(es) => exists i :: 0 <= i < |es| && Poisoned(es[i])
    case _ => false
  }

  /** `Array.prototype.join(",")` over the already-converted elements; the first
      element that raised propagates. */
  function JoinParts(parts: seq<Outcome<string>>): (r: Outcome<string>)
    ensures r.Threw? <==> exists i :: 0 <= i < |parts| && parts[i].Threw?
  {
    if |parts| == 0 then Ok("")
    else if |parts| == 1 then parts[0]
    else
      var init := JoinParts(parts[..|parts| - 1]);
      var last := parts[|parts| - 1];
      assert forall i :: 0 <= i < |parts| - 1 ==> parts[..|parts| - 1][i] == parts[i];
      if init.Threw? || last.Threw? then Threw else Ok(init.value + "," + last.value)
  }

  /** ToPrimitive, as JavaScript applies it to a JSON value under every hint:
      arrays become the comma-joined text of their elements (null elements give
      the empty text) and plain objects become "[object Object]". */
  function ToPrimitive(rt: Runtime, v: Json): (r: Outcome<Prim>)
    ensures r.Threw? <==> Poisoned(v)
    ensures r.Ok? && !v.JArr? && !v.JObj? ==> r.value == AsPrim(v)
    decreases v
  {
    match v
    case JNull => Ok(PNull)
    case JBool(b) => Ok(PBool(b))
    case JNum(x) => Ok(PNum(x))
    case JStr(s) => Ok(PStr(s))
    case JArr(es) =>
      var parts := seq(|es|, i requires 0 <= i < |es| =>
        if es[i].JNull? then Ok("")
        else
          (match ToPrimitive(rt, es[i])
           case Ok(p) => Ok(PrimString(rt, p))
           case Threw => Threw));
      assert forall i :: 0 <= i < |es| ==> (parts[i].Threw? <==> Poisoned(es[i]));
      (match JoinParts(parts)
       case Ok(s) => Ok(PStr(s))
       case Threw => Threw)
    case JObj(fields) =>
      if "toString" in fields then Threw else Ok(PStr("[object Object]"))
  }

  /** The primitive a scalar JSON value already is. */
  function AsPrim(v: Json): Prim
    requires !v.JArr? && !v.JObj?
  {
    match v
    case JNull => PNull
    case JBool(b) => PBool(b)
    case JNum(x) => PNum(x)
    case JStr(s) => PStr(s)
  }

  /** ToString of a primitive. */
  function PrimString(rt: Runtime, p: Prim): string
  {
    match p
    case PNull => "null"
    case PBool(b) => if b then "true" else "false"
    case PNum(x) => rt.stringOf(x)
    case PStr(s) => s
  }

  /** ToNumber of a primitive. */
  function PrimNumber(rt: Runtime, p: Prim): Num
  {
    match p
    case PNull => Finite(0.0)
    case PBool(b) => Finite(if b then 1.0 else 0.0)
    case PNum(x) => Finite(x)
    case PStr(s) => rt.numberOf(s)
  }

  /** `String(v)`. */
  function ToStr(rt: Runtime, v: Json): (r: Outcome<string>)
    ensures r.Threw? <==> Poisoned(v)
    ensures v.JStr? ==> r == Ok(v.s)
  {
    match ToPrimitive(rt, v)
    case Ok(p) => Ok(PrimString(rt, p))
    case Threw => Threw
  }

  /** `Number(v)` where `v` may be undefined (which gives NaN). */
  function ToNumber(rt: Runtime, v: Option<Json>): (r: Outcome<Num>)
    ensures r.Threw? <==> v.Some? && Poisoned(v.value)
    ensures v.None? ==> r == Ok(NaN)
    ensures v.Some? && v.value.JNum? ==> r == Ok(Finite(v.value.n))
    ensures Nullish(v) && v.Some? ==> r == Ok(Finite(0.0))
  {
    if v.None? then Ok(NaN)
    else
      match ToPrimitive(rt, v.value)
      case Ok(p) => Ok(PrimNumber(rt, p))
      case Threw => Threw
  }

  /** The binary `+` operator on primitives: concatenation as soon as one side is
      text, numeric addition otherwise. */
  function Add(rt: Runtime, a: Prim, b: Prim): (r: Prim)
    ensures a.PNum? && b.PNum? ==> r == PNum(a.x + b.x)
    ensures r.PStr? <==> a.PStr? || b.PStr?
  {
    if a.PStr? || b.PStr? then PStr(PrimString(rt, a) + PrimString(rt, b))
    else PNum(PrimNumber(rt, a).x + PrimNumber(rt, b).x)
  }

  /** `Math.round` on a finite number: the nearest integer, halves rounded up. */
  function Round(x: real): (r: int)
    ensures x - 0.5 < r as real <= x + 0.5
  {
    (x + 0.5).Floor
  }

  /** Rounding an integer changes nothing. */
  lemma RoundInt(n: int)
    ensures Round(n as real) == n
  {
  }

  /** `Math.round(Number(v))`, NaN staying NaN. */
  function RoundNum(n: Num): (r: Num)
    ensures n.NaN? <==> r.NaN?
    ensures n.Finite? ==> n.x - 0.5 < r.x <= n.x + 0.5 && r.x == r.x.Floor as real
  {
    match n
    case NaN => NaN
    case Finite(x) => Finite(Round(x) as real)
  }
}

=== FILE: js_text.dfy ===
/** The parts of JavaScript's String behaviour that the server and the UI rely on:
    `trim`, `indexOf`/`lastIndexOf` of one character, `includes`, ASCII
    `toLowerCase`, and the decimal rendering of a non-negative integer. */
module JsText {

  /** WhiteSpace and LineTerminator code points, the set `String.prototype.trim` removes. */
  predicate IsSpace(c: char) {
    || ('\t' <= c <= '\r') || c == ' ' || c == '\U{00A0}' || c == '\U{1680}'
    || ('\U{2000}' <= c <= '\U{200A}') || c == '\U{2028}' || c == '\U{2029}'
    || c == '\U{202F}' || c == '\U{205F}' || c == '\U{3000}' || c == '\U{FEFF}'
  }

  /** The position of the first character at or after `i` that is not white
      space (`|s|` when there is none). */
  function SkipSpaces(s: string, i: nat): (r: nat)
    requires i <= |s|
    ensures i <= r <= |s|
    ensures forall k :: i <= k < r ==> IsSpace(s[k])
    ensures r < |s| ==> !IsSpace(s[r])
    decreases |s| - i
  {
    if i < |s| && IsSpace(s[i]) then SkipSpaces(s, i + 1) else i
  }

  /** The position just after the last character before `j`, and at or after
      `lo`, that is not white space (`lo` when there is none). */
  function BackSpaces(s: string, lo: nat, j: nat): (r: nat)
    requires lo <= j <= |s|
    ensures lo <= r <= j
    ensures forall k :: r <= k < j ==> IsSpace(s[k])
    ensures r > lo ==> !IsSpace(s[r - 1])
    decreases j
  {
    if j > lo && IsSpace(s[j - 1]) then BackSpaces(s, lo, j - 1) else j
  }

  /** How many characters `trim` drops from the front of `s`. */
  function TrimOffset(s: string): nat
  {
    SkipSpaces(s, 0)
  }

  /** `String.prototype.trim`: the slice of `s` left once the maximal runs of
      white space at both ends are gone. */
  function Trim(s: string): (r: string)
    ensures TrimOffset(s) + |r| <= |s|
    ensures r == s[TrimOffset(s)..TrimOffset(s) + |r|]
    ensures forall i :: 0 <= i < TrimOffset(s) ==> IsSpace(s[i])
    ensures forall i :: TrimOffset(s) + |r| <= i < |s| ==> IsSpace(s[i])
    ensures |r| > 0 ==> !IsSpace(r[0]) && !IsSpace(r[|r| - 1])
  {
    var lo := TrimOffset(s);
    s[lo..BackSpaces(s, lo, |s|)]
  }

  /** `s.indexOf(c)`: the first position of `c`, or -1. */
  function IndexOf(s: string, c: char): (r: int)
    ensures -1 <= r < |s|
    ensures r >= 0 ==> s[r] == c
  {
    if |s| == 0 then -1
    else if s[0] == c then 0
    else
      var k := IndexOf(s[1..], c);
      if k == -1 then -1 else k + 1
  }

  /** `indexOf` finds the first occurrence, and -1 exactly when there is none. */
  lemma {:induction false} IndexOfFirst(s: string, c: char)
    ensures IndexOf(s, c) == -1 <==> c !in s
    ensures IndexOf(s, c) >= 0 ==> forall j :: 0 <= j < IndexOf(s, c) ==> s[j] != c
    decreases |s|
  {
    if |s| > 0 && s[0] != c {
      IndexOfFirst(s[1..], c);
      assert s == [s[0]] + s[1..];
    }
  }

  /** `s.lastIndexOf(c)`: the last position of `c`, or -1. */
  function LastIndexOf(s: string, c: char): (r: int)
    ensures -1 <= r < |s|
    ensures r >= 0 ==> s[r] == c
  {
    if |s| == 0 then -1
    else if s[|s| - 1] == c then |s| - 1
    else LastIndexOf(s[..|s| - 1], c)
  }

  /** `lastIndexOf` finds the last occurrence, and -1 exactly when there is none. */
  lemma {:induction false} LastIndexOfLast(s: string, c: char)
    ensures LastIndexOf(s, c) == -1 <==> c !in s
    ensures LastIndexOf(s, c) >= 0 ==> forall j :: LastIndexOf(s, c) < j < |s| ==> s[j] != c
    decreases |s|
  {
    if |s| > 0 && s[|s| - 1] != c {
      var init := s[..|s| - 1];
      LastIndexOfLast(init, c);
      assert s == init + [s[|s| - 1]];
    }
  }

  /** `t` occurs in `s` starting at position `i`. */
  predicate OccursAt(s: string, t: string, i: int)
  {
    0 <= i && i + |t| <= |s| && s[i..i + |t|] == t
  }

  /** `s.includes(t)`. */
  function Contains(s: string, t: string): (b: bool)
    ensures b <==> exists i :: OccursAt(s, t, i)
    decreases |s|
  {
    if |t| > |s| then
      assert forall i :: !OccursAt(s, t, i);
      false
    else if s[..|t|] == t then
      assert OccursAt(s, t, 0);
      true
    else
      var b := Contains(s[1..], t);
      assert forall i :: OccursAt(s[1..], t, i) ==> OccursAt(s, t, i + 1);
      assert forall i :: OccursAt(s, t, i) && i > 0 ==> OccursAt(s[1..], t, i - 1);
      b
  }

  /** Lower-case mapping of one character, restricted to ASCII letters. */
  function LowerChar(c: char): char
  {
    if 'A' <= c <= 'Z' then (c as int + 32) as char else c
  }

  /** `s.toLowerCase()` restricted to ASCII letters. */
  function ToLower(s: string): (r: string)
    ensures |r| == |s|
    ensures forall i :: 0 <= i < |s| ==> r[i] == LowerChar(s[i])
  {
    seq(|s|, i requires 0 <= i < |s| => LowerChar(s[i]))
  }

  predicate IsDigit(c: char)
  {
    '0' <= c <= '9'
  }

  function DigitChar(d: nat): (c: char)
    requires d < 10
    ensures IsDigit(c)
  {
    ('0' as int + d) as char
  }

  /** The value of a string of decimal digits. */
  function DigitsValue(s: string): nat
    requires forall i :: 0 <= i < |s| ==> IsDigit(s[i])
  {
    if |s| == 0 then 0
    else
      assert IsDigit(s[|s| - 1]);
      DigitsValue(s[..|s| - 1]) * 10 + (s[|s| - 1] as int - '0' as int)
  }

  /** How JavaScript renders a non-negative integer as text: decimal digits, no
      leading zero. */
  function Decimal(n: nat): (r: string)
    ensures |r| > 0 && forall i :: 0 <= i < |r| ==> IsDigit(r[i])
    ensures r[0] == '0' ==> n == 0
  {
    if n < 10 then [DigitChar(n)] else Decimal(n / 10) + [DigitChar(n % 10)]
  }

  /** Reading the rendering back gives the number: the rendering loses nothing. */
  lemma {:induction false} DecimalRoundTrip(n: nat)
    ensures DigitsValue(Decimal(n)) == n
  {
    if n >= 10 {
      DecimalRoundTrip(n / 10);
      var r := Decimal(n);
      assert r[..|r| - 1] == Decimal(n / 10);
    }
  }
}

=== FILE: js_value.dfy ===
/** JSON-shaped JavaScript values, as produced by `JSON.parse` and consumed by
    the server and the UI, with JavaScript's truthiness and property lookup. */
module JsValue {
  import opened Outcomes

  /** Numbers are finite reals; an object is the map of its own properties. */
  datatype Json =
    | JNull
    | JBool(b: bool)
    | JNum(n: real)
    | JStr(s: string)
    | JArr(elems: seq<Json>)
    | JObj(fields: map<string, Json>)

  /** JavaScript truthiness: null, false, 0 and "" are falsy; arrays and objects,
      even empty ones, are truthy. */
  predicate Truthy(v: Json)
  {
    match v
    case JNull => false
    case JBool(b) => b
    case JNum(n) => n != 0.0
    case JStr(s) => |s| > 0
    case _ => true
  }

  /** Truthiness of a possibly `undefined` value. */
  predicate IsTruthy(v: Option<Json>)
  {
    v.Some? && Truthy(v.value)
  }

  /** `v == null` in the loose sense of `??` and `!= null`: null or undefined. */
  predicate Nullish(v: Option<Json>)
  {
    v.None? || v.value.JNull?
  }

  /** `v?.key` for a JSON value: only objects have the properties the program reads. */
  function Member(v: Json, key: string): (r: Option<Json>)
    ensures r.Some? <==> v.JObj? && key in v.fields
    ensures r.Some? ==> r.value == v.fields[key]
  {
    if v.JObj? && key in v.fields then Some(v.fields[key]) else None
  }

  /** `o?.key` where `o` may itself be undefined. */
  function MemberOf(v: Option<Json>, key: string): Option<Json>
  {
    if v.Some? then Member(v.value, key) else None
  }

  /** `a || b`: the first operand when it is truthy, otherwise the second. */
  function Or(a: Option<Json>, b: Json): (r: Json)
    ensures IsTruthy(a) ==> r == a.value
    ensures !IsTruthy(a) ==> r == b
  {
    if IsTruthy(a) then a.value else b
  }
}

=== FILE: outcomes.dfy ===
/** Failure-carrying wrappers shared by every module of this project. */
module Outcomes {

  /** A JavaScript value that may be `undefined` (None). */
  datatype Option<+T> = None | Some(value: T)

  /** The result of a JavaScript computation that may raise a TypeError. */
  datatype Outcome<+T> = Ok(value: T) | Threw
}

=== FILE: sanitizer.dfy ===
/** The server's post-processing of the generative model's free text (server/server.js):
    `extractJson` cuts the outermost brace span out of the text and parses it;
    `visibilityGuard` drops inferred dishes, rounds the numbers and fills in
    defaults. */
module Sanitizer {
  import opened Outcomes
  import opened JsText
  import opened JsValue
  import opened JsCoerce

  // ---------------------------------------------------------------------------
  // extractJson

  /** Some `{` in `s` is followed, later on, by a `}`. */
  predicate HasBraceSpan(s: string)
  {
    exists i, j :: 0 <= i < j < |s| && s[i] == '{' && s[j] == '}'
  }

  /** `extractJson(text)`: trim, locate the first `{` and the last `}`, and parse
      the inclusive slice between them; every failure gives null (None). */
  function ExtractJson(rt: Runtime, text: string): (r: Option<Json>)
    ensures |Trim(text)| == 0 ==> r == None
  {
    ParseSpan(rt, Trim(text))
  }

  /** The part of `extractJson` after trimming. */
  function ParseSpan(rt: Runtime, content: string): (r: Option<Json>)
    ensures |content| == 0 ==> r == None
  {
    if |content| == 0 then None
    else
      var first := IndexOf(content, '{');
      var last := LastIndexOf(content, '}') + 1;
      if first == -1 || last <= first then None
      else rt.parse(content[first..last])
  }

  /** A character that is not white space survives trimming, at the position
      shifted by what was trimmed off the front. */
  lemma NonSpaceKept(text: string, i: int)
    requires 0 <= i < |text| && !IsSpace(text[i])
    ensures TrimOffset(text) <= i < TrimOffset(text) + |Trim(text)|
    ensures Trim(text)[i - TrimOffset(text)] == text[i]
  {
  }

  /** Cutting away parts of `s` that do not hold `c` shifts its first and last
      positions by the length of the cut prefix. */
  lemma IndexOfInSlice(s: string, lo: int, hi: int, c: char)
    requires 0 <= lo <= hi <= |s|
    requires forall i :: 0 <= i < |s| && s[i] == c ==> lo <= i < hi
    ensures IndexOf(s, c) == -1 <==> IndexOf(s[lo..hi], c) == -1
    ensures LastIndexOf(s, c) == -1 <==> LastIndexOf(s[lo..hi], c) == -1
    ensures IndexOf(s[lo..hi], c) >= 0 ==> IndexOf(s, c) == lo + IndexOf(s[lo..hi], c)
    ensures LastIndexOf(s[lo..hi], c) >= 0 ==> LastIndexOf(s, c) == lo + LastIndexOf(s[lo..hi], c)
  {
    FirstInSlice(s, lo, hi, c);
    LastInSlice(s, lo, hi, c);
  }

  /** The `indexOf` half of `IndexOfInSlice`. */
  lemma FirstInSlice(s: string, lo: int, hi: int, c: char)
    requires 0 <= lo <= hi <= |s|
    requires forall i :: 0 <= i < |s| && s[i] == c ==> lo <= i < hi
    ensures IndexOf(s, c) == -1 <==> IndexOf(s[lo..hi], c) == -1
    ensures IndexOf(s[lo..hi], c) >= 0 ==> IndexOf(s, c) == lo + IndexOf(s[lo..hi], c)
  {
    var t := s[lo..hi];
    IndexOfFirst(s, c);
    IndexOfFirst(t, c);
    var k := IndexOf(t, c);
    var K := IndexOf(s, c);
    if K >= 0 {
      assert t[K - lo] == c;
    }
    if k >= 0 {
      assert s[lo + k] == c;
      assert K == lo + k;
    }
  }

  /** The `lastIndexOf` half of `IndexOfInSlice`. */
  lemma LastInSlice(s: string, lo: int, hi: int, c: char)
    requires 0 <= lo <= hi <= |s|
    requires forall i :: 0 <= i < |s| && s[i] == c ==> lo <= i < hi
    ensures LastIndexOf(s, c) == -1 <==> LastIndexOf(s[lo..hi], c) == -1
    ensures LastIndexOf(s[lo..hi], c) >= 0 ==> LastIndexOf(s, c) == lo + LastIndexOf(s[lo..hi], c)
  {
    var t := s[lo..hi];
    LastIndexOfLast(s, c);
    LastIndexOfLast(t, c);
    var m := LastIndexOf(t, c);
    var M := LastIndexOf(s, c);
    if M >= 0 {
      assert t[M - lo] == c;
    }
    if m >= 0 {
      assert s[lo + m] == c;
    }
  }

  /** Trimming never removes a brace, so the braces keep their order and their
      positions shift uniformly. */
  lemma TrimKeepsBraces(text: string, c: char)
    requires !IsSpace(c)
    ensures IndexOf(Trim(text), c) == -1 <==> IndexOf(text, c) == -1
    ensures LastIndexOf(Trim(text), c) == -1 <==> LastIndexOf(text, c) == -1
    ensures IndexOf(Trim(text), c) >= 0 ==> IndexOf(text, c) == TrimOffset(text) + IndexOf(Trim(text), c)
    ensures LastIndexOf(Trim(text), c) >= 0 ==> LastIndexOf(text, c) == TrimOffset(text) + LastIndexOf(Trim(text), c)
  {
    var t := Trim(text);
    var lo := TrimOffset(text);
    var hi := lo + |t|;
    assert t == text[lo..hi];
    forall i | 0 <= i < |text| && text[i] == c
      ensures lo <= i < hi
    {
      NonSpaceKept(text, i);
    }
    IndexOfInSlice(text, lo, hi, c);
  }

  /** A slice of `t`, itself the slice of `text` starting at `lo`, is a slice
      of `text`. */
  lemma SliceShift(text: string, t: string, lo: nat, a: int, b: int, c: int, d: int)
    requires lo + |t| <= |text| && t == text[lo..lo + |t|]
    requires 0 <= a <= b <= |t| && c == lo + a && d == lo + b
    ensures t[a..b] == text[c..d]
  {
    forall k | 0 <= k < b - a
      ensures t[a..b][k] == text[c..d][k]
    {
      assert t[a + k] == text[lo..lo + |t|][a + k];
    }
  }

  /** Equal texts parse alike. Stated on its own so that the span proofs can
      name the two slices once, instead of leaving the solver to relate every
      slice of the trimmed text to a slice of the original (which it does only
      at a cost that varies widely from run to run). */
  lemma ParseEqual(rt: Runtime, x: string, y: string)
    requires x == y
    ensures rt.parse(x) == rt.parse(y)
  {
  }

  /** The index bookkeeping behind `ParseSpanOfSlice`: the trimmed text's
      first `{` and last `}` (`first`, `last`) are in order exactly when the
      original text's (`f`, `l`) are. It is stated over bare integers, with
      `span` standing for `BracesInOrder`, so that this arithmetic is done
      without the definitions of `IndexOf` and `LastIndexOf` in view. */
  lemma SpanIndices(f: int, l: int, first: int, last: int, lo: nat, span: bool)
    requires -1 <= first && -1 <= last
    requires first == -1 <==> f == -1
    requires last == -1 <==> l == -1
    requires first >= 0 ==> f == lo + first
    requires last >= 0 ==> l == lo + last
    requires first >= 0 && last >= 0 ==> first != last
    requires span <==> f >= 0 && l > f
    ensures span ==> 0 <= first < last && f == lo + first && l == lo + last
    ensures !span ==> first == -1 || last + 1 <= first
  {
  }

  /** Parsing the span of a text `t` whose braces sit, shifted by `lo`, where
      the braces of `text` sit: null exactly when `text` has no brace span. */
  lemma ParseSpanOfSlice(rt: Runtime, text: string, t: string, lo: nat)
    requires IndexOf(t, '{') == -1 <==> IndexOf(text, '{') == -1
    requires LastIndexOf(t, '}') == -1 <==> LastIndexOf(text, '}') == -1
    requires IndexOf(t, '{') >= 0 ==> IndexOf(text, '{') == lo + IndexOf(t, '{')
    requires LastIndexOf(t, '}') >= 0 ==> LastIndexOf(text, '}') == lo + LastIndexOf(t, '}')
    ensures !BracesInOrder(text) ==> ParseSpan(rt, t) == None
    ensures BracesInOrder(text) ==>
      && 0 <= IndexOf(t, '{') < LastIndexOf(t, '}')
      && IndexOf(text, '{') == lo + IndexOf(t, '{')
      && LastIndexOf(text, '}') == lo + LastIndexOf(t, '}')
      && ParseSpan(rt, t) == rt.parse(t[IndexOf(t, '{')..LastIndexOf(t, '}') + 1])
  {
    var first := IndexOf(t, '{');
    var last := LastIndexOf(t, '}');
    if first >= 0 && last >= 0 {
      assert t[first] != t[last];
    }
    SpanIndices(IndexOf(text, '{'), LastIndexOf(text, '}'), first, last, lo, BracesInOrder(text));
    if BracesInOrder(text) {
      ParseSpanFound(rt, t, first, last);
    }
  }

  /** The found case of `ParseSpanOfSlice`. */
  lemma ParseSpanFound(rt: Runtime, t: string, first: int, last: int)
    requires first == IndexOf(t, '{') && last == LastIndexOf(t, '}')
    requires 0 <= first < last
    ensures ParseSpan(rt, t) == rt.parse(t[first..last + 1])
  {
  }

  /** The first `{` comes before the last `}`. */
  predicate BracesInOrder(s: string)
  {
    IndexOf(s, '{') >= 0 && LastIndexOf(s, '}') > IndexOf(s, '{')
  }

  /** A `}` follows a `{` exactly when the last `}` comes after the first `{`. */
  lemma BraceSpanOrdered(text: string)
    ensures HasBraceSpan(text) <==> BracesInOrder(text)
  {
    var f := IndexOf(text, '{');
    var l := LastIndexOf(text, '}');
    IndexOfFirst(text, '{');
    LastIndexOfLast(text, '}');
    if HasBraceSpan(text) {
      var i, j :| 0 <= i < j < |text| && text[i] == '{' && text[j] == '}';
      assert f <= i && j <= l;
    }
    if f >= 0 && l > f {
      assert text[f] == '{' && text[l] == '}';
    }
  }

  /** `extractJson` as a statement about the untrimmed text: it parses exactly the
      span from the first `{` to the last `}`, inclusive, and gives null unless
      the first `{` comes before the last `}`. */
  lemma ExtractJsonSpan(rt: Runtime, text: string)
    ensures ExtractJson(rt, text) ==
      if BracesInOrder(text) then rt.parse(text[IndexOf(text, '{')..LastIndexOf(text, '}') + 1])
      else None
  {
    TrimFacts(text);
    SpanOfTrimmed(rt, text, Trim(text), TrimOffset(text));
  }

  /** What `ExtractJsonSpan` needs to know of the trimmed text `t`, cut from
      `text` at `lo`: the braces are those of `text`, shifted by `lo`, and so is
      the span between them. */
  ghost predicate TrimmedBraces(text: string, t: string, lo: nat)
  {
    && lo + |t| <= |text|
    && (IndexOf(t, '{') == -1 <==> IndexOf(text, '{') == -1)
    && (LastIndexOf(t, '}') == -1 <==> LastIndexOf(text, '}') == -1)
    && (IndexOf(t, '{') >= 0 ==> IndexOf(text, '{') == lo + IndexOf(t, '{'))
    && (LastIndexOf(t, '}') >= 0 ==> LastIndexOf(text, '}') == lo + LastIndexOf(t, '}'))
    && (BracesInOrder(t) ==>
          t[IndexOf(t, '{')..LastIndexOf(t, '}') + 1]
          == text[lo + IndexOf(t, '{')..lo + LastIndexOf(t, '}') + 1])
  }

  /** Trimming keeps the braces and the span between them. */
  lemma TrimFacts(text: string)
    ensures TrimmedBraces(text, Trim(text), TrimOffset(text))
  {
    TrimKeepsBraces(text, '{');
    TrimKeepsBraces(text, '}');
    TrimmedSpan(text);
  }

  /** The span between the braces of the trimmed text is the same span of the
      text, shifted by the trim offset. */
  lemma TrimmedSpan(text: string)
    ensures var t := Trim(text);
      BracesInOrder(t) ==>
        t[IndexOf(t, '{')..LastIndexOf(t, '}') + 1]
        == text[TrimOffset(text) + IndexOf(t, '{')..TrimOffset(text) + LastIndexOf(t, '}') + 1]
  {
    var t := Trim(text);
    var lo := TrimOffset(text);
    if BracesInOrder(t) {
      var a := IndexOf(t, '{');
      var b := LastIndexOf(t, '}') + 1;
      SliceShift(text, t, lo, a, b, lo + a, lo + b);
    }
  }

  /** `ExtractJsonSpan` for the trimmed text `t`, cut from `text` at `lo`. */
  lemma SpanOfTrimmed(rt: Runtime, text: string, t: string, lo: nat)
    requires TrimmedBraces(text, t, lo)
    ensures ParseSpan(rt, t) ==
      if BracesInOrder(text) then rt.parse(text[IndexOf(text, '{')..LastIndexOf(text, '}') + 1])
      else None
  {
    ParseSpanOfSlice(rt, text, t, lo);
    if BracesInOrder(text) {
      var a := IndexOf(t, '{');
      var b := LastIndexOf(t, '}') + 1;
      assert BracesInOrder(t);
      ParseEqual(rt, t[a..b], text[lo + a..lo + b]);
    }
  }

  /** `extractJson` gives null when no `}` follows a `{`: in particular for empty
      or blank text and for text without braces. */
  lemma ExtractJsonNull(rt: Runtime, text: string)
    requires !HasBraceSpan(text)
    ensures ExtractJson(rt, text) == None
  {
    BraceSpanOrdered(text);
    ExtractJsonSpan(rt, text);
  }

  /** Prose around the body is ignored: with no `{` before the body and no
      `}` after it, `extractJson` parses exactly the body's text. */
  lemma ProseIgnored(rt: Runtime, before: string, body: string, after: string)
    requires '{' !in before && '}' !in after
    requires |body| >= 2 && body[0] == '{' && body[|body| - 1] == '}'
    ensures ExtractJson(rt, before + body + after) == rt.parse(body)
  {
    var text := before + body + after;
    FirstBraceAfterProse(before, body, after);
    LastBraceBeforeProse(before, body, after);
    ExtractJsonSpan(rt, text);
    assert text[|before|..|before| + |body|] == body;
  }

  /** The first `{` of `before + body + after` opens `body`. */
  lemma FirstBraceAfterProse(before: string, body: string, after: string)
    requires '{' !in before
    requires |body| >= 1 && body[0] == '{'
    ensures IndexOf(before + body + after, '{') == |before|
  {
    var text := before + body + after;
    IndexOfFirst(text, '{');
    assert text[|before|] == '{';
  }

  /** The last `}` of `before + body + after` closes `body`. */
  lemma LastBraceBeforeProse(before: string, body: string, after: string)
    requires '}' !in after
    requires |body| >= 1 && body[|body| - 1] == '}'
    ensures LastIndexOf(before + body + after, '}') == |before| + |body| - 1
  {
    var text := before + body + after;
    LastIndexOfLast(text, '}');
    var l := |before| + |body| - 1;
    assert text[l] == '}';
  }

  // ---------------------------------------------------------------------------
  // visibilityGuard

  /** Dish names the generative model tends to infer rather than see. */
  const Denylist: seq<string> :=
    ["roti", "chapati", "naan", "paratha", "sabzi", "dal", "thali", "curry", "rice"]

  const DefaultNotes: string := "Filtered for visible items only."
  const InvalidResponse: string := "INVALID_RESPONSE"
  const ProcessingFailed: string := "PROCESSING_FAILED"

  /** The four keys of the output `macros` body. */
  const MacroKeys: set<string> := {"protein_g", "carbs_g", "fat_g", "fiber_g"}

  /** The keys `visibilityGuard` writes into the record it returns. */
  const GuardKeys: set<string> := {"items", "notes", "calories", "macros", "serving"}

  /** A (lower-cased) name mentions a denylisted dish. */
  predicate Denied(name: string)
  {
    exists k :: 0 <= k < |Denylist| && Contains(name, Denylist[k])
  }

  /** A (lower-cased) name carries an explicit visibility marker. */
  predicate MarkedVisible(name: string)
  {
    Contains(name, "visible") || Contains(name, "plate")
  }

  /** The filter's decision on a lower-cased name. */
  predicate KeepName(name: string)
  {
    !Denied(name) || MarkedVisible(name)
  }

  /** `String(item?.name || '').toLowerCase()`. */
  function LowerName(rt: Runtime, item: Json): (r: Outcome<string>)
    ensures r.Threw? <==> NamePoisoned(item)
    ensures !IsTruthy(Member(item, "name")) ==> r == Ok("")
  {
    var name := Member(item, "name");
    if !IsTruthy(name) then Ok("")
    else
      match ToStr(rt, name.value)
      case Ok(s) => Ok(ToLower(s))
      case Threw => Threw
  }

  /** The item's name is truthy and converting it to text raises. */
  ghost predicate NamePoisoned(item: Json)
  {
    IsTruthy(Member(item, "name")) && Poisoned(Member(item, "name").value)
  }

  /** The filter callback: whether the item is kept, or the TypeError it raises. */
  function Verdict(rt: Runtime, item: Json): (r: Outcome<bool>)
    ensures r.Threw? <==> NamePoisoned(item)
    ensures !IsTruthy(Member(item, "name")) ==> r == Ok(KeepName(""))
    ensures IsTruthy(Member(item, "name")) && Member(item, "name").value.JStr? ==>
      r == Ok(KeepName(ToLower(Member(item, "name").value.s)))
  {
    match LowerName(rt, item)
    case Ok(name) => Ok(KeepName(name))
    case Threw => Threw
  }

  /** An item whose text name mentions a denylisted dish, in any letter case,
      is dropped unless the name also says "visible" or "plate". */
  lemma DenylistedNameDropped(rt: Runtime, item: Json, s: string, k: int, i: int)
    requires Member(item, "name") == Some(JStr(s)) && |s| > 0
    requires 0 <= k < |Denylist| && OccursAt(ToLower(s), Denylist[k], i)
    requires !MarkedVisible(ToLower(s))
    ensures Verdict(rt, item) == Ok(false)
  {
    assert Contains(ToLower(s), Denylist[k]);
  }

  /** An item whose text name mentions no denylisted dish, in any letter case,
      is kept. */
  lemma PlainNameKept(rt: Runtime, item: Json, s: string)
    requires Member(item, "name") == Some(JStr(s)) && |s| > 0
    requires forall k :: 0 <= k < |Denylist| ==> !Contains(ToLower(s), Denylist[k])
    ensures Verdict(rt, item) == Ok(true)
  {
  }

  /** An item whose text name says "visible" or "plate", in any letter case,
      is kept whatever dish it names. */
  lemma MarkedNameKept(rt: Runtime, item: Json, s: string)
    requires Member(item, "name") == Some(JStr(s)) && |s| > 0
    requires MarkedVisible(ToLower(s))
    ensures Verdict(rt, item) == Ok(true)
  {
  }

  /** An item without a (truthy) name is kept: the empty name mentions no dish. */
  lemma UnnamedKept(rt: Runtime, item: Json)
    requires !IsTruthy(Member(item, "name"))
    ensures Verdict(rt, item) == Ok(true)
  {
    forall k | 0 <= k < |Denylist|
      ensures !Contains("", Denylist[k])
    {
      assert |Denylist[k]| > 0;
    }
  }

  /** `a` is `b` with some elements left out, order kept. */
  predicate IsSubsequence<T(==)>(a: seq<T>, b: seq<T>)
    decreases |b|
  {
    if |a| == 0 then true
    else if |b| == 0 then false
    else (a[0] == b[0] && IsSubsequence(a[1..], b[1..])) || IsSubsequence(a, b[1..])
  }

  /** `Array.isArray(items) ? items : []`. */
  function ItemList(items: Json): seq<Json>
  {
    if items.JArr? then items.elems else []
  }

  /** `items.filter(...)` with the visibility callback. */
  function FilterItems(rt: Runtime, items: seq<Json>): (r: Outcome<seq<Json>>)
    ensures r.Threw? <==> exists i :: 0 <= i < |items| && NamePoisoned(items[i])
    ensures r.Ok? ==> IsSubsequence(r.value, items)
    ensures r.Ok? ==> forall x :: multiset(r.value)[x] == if Verdict(rt, x) == Ok(true) then multiset(items)[x] else 0
  {
    if |items| == 0 then Ok([])
    else
      var head := items[0];
      var rest := FilterItems(rt, items[1..]);
      assert items == [head] + items[1..];
      assert forall i :: 1 <= i < |items| ==> items[i] == items[1..][i - 1];
      match Verdict(rt, head)
      case Threw => Threw
      case Ok(keep) =>
        if rest.Threw? then Threw
        else if keep then Ok([head] + rest.value)
        else Ok(rest.value)
  }

  /** `Math.round(Number(v) || 0)`. */
  function CleanNumber(rt: Runtime, v: Option<Json>): (r: Outcome<int>)
    ensures r.Threw? <==> v.Some? && Poisoned(v.value)
    ensures r.Ok? ==> RoundedFrom(rt, v, r.value)
  {
    match ToNumber(rt, v)
    case Threw => Threw
    case Ok(NaN) => Ok(0)
    case Ok(Finite(x)) => Ok(Round(x))
  }

  /** `n` is what the clean-up makes of `v`: the nearest integer (halves up) to
      the number `v` denotes, or 0 when `v` is absent or not a number. */
  ghost predicate RoundedFrom(rt: Runtime, v: Option<Json>, n: int)
  {
    match ToNumber(rt, v)
    case Ok(Finite(x)) => x - 0.5 < n as real <= x + 0.5
    case _ => n == 0
  }

  /** The four cleaned macros of `macros` (which is `parsed.macros || {}`). */
  function CleanMacros(rt: Runtime, macros: Json): (r: Outcome<Json>)
    ensures r.Threw? <==> exists k :: k in MacroKeys && PoisonedMember(macros, k)
    ensures r.Ok? ==> r.value.JObj? && r.value.fields.Keys == MacroKeys
    ensures r.Ok? ==> forall k :: k in MacroKeys ==> RoundedNumber(rt, Member(macros, k), r.value.fields[k])
  {
    var protein := CleanNumber(rt, Member(macros, "protein_g"));
    var carbs := CleanNumber(rt, Member(macros, "carbs_g"));
    var fat := CleanNumber(rt, Member(macros, "fat_g"));
    var fiber := CleanNumber(rt, Member(macros, "fiber_g"));
    if protein.Threw? || carbs.Threw? || fat.Threw? || fiber.Threw? then Threw
    else
      Ok(JObj(map[
        "protein_g" := JNum(protein.value as real),
        "carbs_g" := JNum(carbs.value as real),
        "fat_g" := JNum(fat.value as real),
        "fiber_g" := JNum(fiber.value as real)]))
  }

  /** `o.k` exists and converting it to a number raises. */
  ghost predicate PoisonedMember(o: Json, k: string)
  {
    Member(o, k).Some? && Poisoned(Member(o, k).value)
  }

  /** `out` is an integral JSON number that the clean-up makes of `v`. */
  ghost predicate RoundedNumber(rt: Runtime, v: Option<Json>, out: Json)
  {
    out.JNum? && out.n == out.n.Floor as real && RoundedFrom(rt, v, out.n.Floor)
  }

  /** The guard accepts the input for processing: present, truthy, with a truthy
      `items` property. */
  predicate HasItems(parsed: Option<Json>)
  {
    parsed.Some? && Truthy(parsed.value) && IsTruthy(Member(parsed.value, "items"))
  }

  /** Some value the guard converts raises a TypeError. */
  ghost predicate ConversionFails(obj: Json)
    requires obj.JObj? && "items" in obj.fields
  {
    var items := ItemList(obj.fields["items"]);
    || (exists i :: 0 <= i < |items| && NamePoisoned(items[i]))
    || PoisonedMember(obj, "calories")
    || (exists k :: k in MacroKeys && PoisonedMember(MacrosIn(obj), k))
  }

  /** `parsed.macros || {}`. */
  function MacrosIn(obj: Json): Json
  {
    Or(Member(obj, "macros"), JObj(map[]))
  }

  /** A sequence is a subsequence of itself. */
  lemma {:induction false} SubsequenceOfSelf<T>(a: seq<T>)
    ensures IsSubsequence(a, a)
    decreases |a|
  {
    if |a| > 0 {
      SubsequenceOfSelf(a[1..]);
    }
  }

  /** A subsequence is no longer than the sequence it is taken from. */
  lemma {:induction false} SubsequenceLength<T>(a: seq<T>, b: seq<T>)
    requires IsSubsequence(a, b)
    ensures |a| <= |b|
    decreases |b|
  {
    if |a| > 0 {
      if a[0] == b[0] && IsSubsequence(a[1..], b[1..]) {
        SubsequenceLength(a[1..], b[1..]);
      } else {
        SubsequenceLength(a, b[1..]);
      }
    }
  }

  /** `filtered.length ? filtered : items`: the kept items, or all of them when
      the filter keeps none. */
  function GuardItems(rt: Runtime, items: seq<Json>): (r: Outcome<seq<Json>>)
    ensures r.Threw? <==> exists i :: 0 <= i < |items| && NamePoisoned(items[i])
    ensures r.Ok? ==> IsSubsequence(r.value, items)
    ensures r.Ok? ==> (|r.value| == 0 <==> |items| == 0)
    ensures r.Ok? && (exists i :: 0 <= i < |items| && Verdict(rt, items[i]) == Ok(true)) ==>
      forall x :: multiset(r.value)[x] == if Verdict(rt, x) == Ok(true) then multiset(items)[x] else 0
    ensures r.Ok? && (forall i :: 0 <= i < |items| ==> Verdict(rt, items[i]) == Ok(false)) ==>
      r.value == items
  {
    match FilterItems(rt, items)
    case Threw => Threw
    case Ok(kept) =>
      if |kept| > 0 then
        assert |items| > 0;
        assert forall i :: 0 <= i < |items| ==> Verdict(rt, items[i]) == Ok(false) ==> items[i] !in kept by {
          forall i | 0 <= i < |items| && Verdict(rt, items[i]) == Ok(false)
            ensures items[i] !in kept
          {
            assert multiset(kept)[items[i]] == 0;
          }
        }
        assert multiset(kept)[kept[0]] > 0;
        assert Verdict(rt, kept[0]) == Ok(true) && kept[0] in items;
        Ok(kept)
      else
        SubsequenceOfSelf(items);
        assert forall i :: 0 <= i < |items| ==> Verdict(rt, items[i]) != Ok(true) by {
          forall i | 0 <= i < |items|
            ensures Verdict(rt, items[i]) != Ok(true)
          {
            assert items[i] in multiset(items);
          }
        }
        Ok(items)
  }

  /** `obj` with the guard's five keys written. */
  function Rewrite(fields: map<string, Json>, items: seq<Json>, notes: Json, calories: int, macros: Json, serving: Json)
    : (r: map<string, Json>)
    ensures r.Keys == fields.Keys + GuardKeys
    ensures r["items"] == JArr(items) && r["notes"] == notes && r["calories"] == JNum(calories as real)
    ensures r["macros"] == macros && r["serving"] == serving
    ensures forall k :: k in fields && k !in GuardKeys ==> r[k] == fields[k]
  {
    fields["items" := JArr(items)]["notes" := notes]["calories" := JNum(calories as real)]
      ["macros" := macros]["serving" := serving]
  }

  /** The default `serving`, from the number of items the generative model reported. */
  function DefaultServing(items: seq<Json>): string
  {
    if |items| == 1 then "Single item" else "Plate"
  }

  datatype GuardResult = Guarded(record: Json) | Rejected(kind: string)

  /** `visibilityGuard(parsed)`: the record with its items filtered, its numbers
      rounded and its defaults filled in, or the error kind. */
  function VisibilityGuard(rt: Runtime, parsed: Option<Json>): (r: GuardResult)
    // error kinds
    ensures r == Rejected(InvalidResponse) <==> !HasItems(parsed)
    ensures r == Rejected(ProcessingFailed) <==> HasItems(parsed) && ConversionFails(parsed.value)
    ensures r.Rejected? ==> r.kind == InvalidResponse || r.kind == ProcessingFailed
    // shape: only the guard's keys are written, everything else passes through
    ensures r.Guarded? ==> HasItems(parsed) && r.record.JObj?
    ensures r.Guarded? ==> r.record.fields.Keys == parsed.value.fields.Keys + GuardKeys
    ensures r.Guarded? ==> forall k :: k in parsed.value.fields && k !in GuardKeys ==>
      r.record.fields[k] == parsed.value.fields[k]
    // items: an order-preserving selection, empty only when the input list is
    ensures r.Guarded? ==> r.record.fields["items"].JArr?
    ensures r.Guarded? ==>
      var items := ItemList(parsed.value.fields["items"]);
      var out := r.record.fields["items"].elems;
      && IsSubsequence(out, items)
      && (|out| == 0 <==> |items| == 0)
      && ((exists i :: 0 <= i < |items| && Verdict(rt, items[i]) == Ok(true)) ==>
            forall x :: multiset(out)[x] == if Verdict(rt, x) == Ok(true) then multiset(items)[x] else 0)
      && ((forall i :: 0 <= i < |items| ==> Verdict(rt, items[i]) == Ok(false)) ==> out == items)
    // numbers: rounded, absent or non-numeric values give 0
    ensures r.Guarded? ==> RoundedNumber(rt, Member(parsed.value, "calories"), r.record.fields["calories"])
    ensures r.Guarded? ==>
      var macros := r.record.fields["macros"];
      && macros.JObj? && macros.fields.Keys == MacroKeys
      && forall k :: k in MacroKeys ==> RoundedNumber(rt, Member(MacrosIn(parsed.value), k), macros.fields[k])
    // defaults
    ensures r.Guarded? ==>
      (r.record.fields["notes"] ==
         if IsTruthy(Member(parsed.value, "notes")) then parsed.value.fields["notes"] else JStr(DefaultNotes))
    ensures r.Guarded? ==>
      (r.record.fields["serving"] ==
         if IsTruthy(Member(parsed.value, "serving")) then parsed.value.fields["serving"]
         else JStr(DefaultServing(ItemList(parsed.value.fields["items"]))))
  {
    if !HasItems(parsed) then Rejected(InvalidResponse) else CleanRecord(rt, parsed.value)
  }

  /** The `try` block of `visibilityGuard`, for a record with truthy `items`. */
  function CleanRecord(rt: Runtime, obj: Json): GuardResult
    requires obj.JObj? && "items" in obj.fields
  {
    var items := ItemList(obj.fields["items"]);
    var kept := GuardItems(rt, items);
    var calories := CleanNumber(rt, Member(obj, "calories"));
    var macros := CleanMacros(rt, MacrosIn(obj));
    if kept.Threw? || calories.Threw? || macros.Threw? then Rejected(ProcessingFailed)
    else
      var notes := Or(Member(obj, "notes"), JStr(DefaultNotes));
      var serving := if IsTruthy(Member(obj, "serving")) then obj.fields["serving"]
                     else JStr(DefaultServing(items));
      Guarded(JObj(Rewrite(obj.fields, kept.value, notes, calories.value, macros.value, serving)))
  }

  /** A null item has no name, so the guard keeps it: `{"items": [null]}` is
      guarded with its one null item. */
  lemma NullItemKept(rt: Runtime, obj: Json)
    requires obj == JObj(map["items" := JArr([JNull])])
    ensures VisibilityGuard(rt, Some(obj)).Guarded?
    ensures VisibilityGuard(rt, Some(obj)).record.fields["items"] == JArr([JNull])
  {
    assert Verdict(rt, JNull) == Ok(true);
    FilterKeepsAll(rt, [JNull]);
    assert GuardItems(rt, [JNull]) == Ok([JNull]);
    assert CleanNumber(rt, Member(obj, "calories")).Ok?;
    assert !ConversionFails(obj);
  }

  /** The filter keeps a list whose every item it accepts. */
  lemma {:induction false} FilterKeepsAll(rt: Runtime, xs: seq<Json>)
    requires forall i :: 0 <= i < |xs| ==> Verdict(rt, xs[i]) == Ok(true)
    ensures FilterItems(rt, xs) == Ok(xs)
    decreases |xs|
  {
    if |xs| > 0 {
      FilterKeepsAll(rt, xs[1..]);
      assert [xs[0]] + xs[1..] == xs;
    }
  }

  /** The filter empties a list whose every item it rejects. */
  lemma {:induction false} FilterDropsAll(rt: Runtime, xs: seq<Json>)
    requires forall i :: 0 <= i < |xs| ==> Verdict(rt, xs[i]) == Ok(false)
    ensures FilterItems(rt, xs) == Ok([])
    decreases |xs|
  {
    if |xs| > 0 {
      FilterDropsAll(rt, xs[1..]);
    }
  }

  /** The guard's items pass the guard again unchanged. */
  lemma GuardItemsIdempotent(rt: Runtime, items: seq<Json>)
    requires GuardItems(rt, items).Ok?
    ensures GuardItems(rt, GuardItems(rt, items).value) == GuardItems(rt, items)
  {
    var out := GuardItems(rt, items).value;
    var kept := FilterItems(rt, items).value;
    if |kept| > 0 {
      assert out == kept;
      forall i | 0 <= i < |out|
        ensures Verdict(rt, out[i]) == Ok(true)
      {
        assert out[i] in multiset(out);
      }
      FilterKeepsAll(rt, out);
    } else {
      assert out == items;
      forall i | 0 <= i < |items|
        ensures Verdict(rt, items[i]) == Ok(false)
      {
        assert items[i] in multiset(items);
        assert items[i] !in multiset(kept);
      }
      FilterDropsAll(rt, items);
    }
  }

  /** A rounded number cleans up to itself. */
  lemma CleanNumberOfInt(rt: Runtime, n: int)
    ensures CleanNumber(rt, Some(JNum(n as real))) == Ok(n)
  {
    RoundInt(n);
  }

  /** Cleaned macros clean up to themselves. */
  lemma CleanMacrosIdempotent(rt: Runtime, macros: Json)
    requires CleanMacros(rt, macros).Ok?
    ensures CleanMacros(rt, CleanMacros(rt, macros).value) == CleanMacros(rt, macros)
  {
    var m := CleanMacros(rt, macros).value;
    var protein := CleanNumber(rt, Member(macros, "protein_g")).value;
    var carbs := CleanNumber(rt, Member(macros, "carbs_g")).value;
    var fat := CleanNumber(rt, Member(macros, "fat_g")).value;
    var fiber := CleanNumber(rt, Member(macros, "fiber_g")).value;
    CleanNumberOfInt(rt, protein);
    CleanNumberOfInt(rt, carbs);
    CleanNumberOfInt(rt, fat);
    CleanNumberOfInt(rt, fiber);
    assert Member(m, "protein_g") == Some(JNum(protein as real));
    assert Member(m, "carbs_g") == Some(JNum(carbs as real));
    assert Member(m, "fat_g") == Some(JNum(fat as real));
    assert Member(m, "fiber_g") == Some(JNum(fiber as real));
  }

  /** Writing back the values a record already holds leaves it as it is. */
  lemma RewriteUnchanged(fields: map<string, Json>, items: seq<Json>, notes: Json, calories: int, macros: Json, serving: Json)
    requires GuardKeys <= fields.Keys
    requires fields["items"] == JArr(items) && fields["notes"] == notes
    requires fields["calories"] == JNum(calories as real)
    requires fields["macros"] == macros && fields["serving"] == serving
    ensures Rewrite(fields, items, notes, calories, macros, serving) == fields
  {
  }

  /** A record in the shape the guard leaves behind: its items pass the filter
      as they are, its numbers are whole, its macros clean and its notes and
      serving truthy. */
  ghost predicate Settled(rt: Runtime, rec: Json)
  {
    && rec.JObj? && GuardKeys <= rec.fields.Keys
    && rec.fields["items"].JArr?
    && GuardItems(rt, rec.fields["items"].elems) == Ok(rec.fields["items"].elems)
    && rec.fields["calories"].JNum? && rec.fields["calories"].n == rec.fields["calories"].n.Floor as real
    && CleanMacros(rt, rec.fields["macros"]) == Ok(rec.fields["macros"])
    && Truthy(rec.fields["notes"]) && Truthy(rec.fields["serving"])
  }

  /** The guard returns a settled record unchanged. */
  lemma SettledFixed(rt: Runtime, rec: Json)
    requires Settled(rt, rec)
    ensures VisibilityGuard(rt, Some(rec)) == Guarded(rec)
  {
    CleanSettled(rt, rec);
  }

  /** The clean-up step of `SettledFixed`. */
  lemma CleanSettled(rt: Runtime, rec: Json)
    requires Settled(rt, rec)
    ensures CleanRecord(rt, rec) == Guarded(rec)
  {
    var calories := rec.fields["calories"].n.Floor;
    CleanNumberOfInt(rt, calories);
    assert Member(rec, "calories") == Some(JNum(calories as real));
    assert MacrosIn(rec) == rec.fields["macros"];
    RewriteUnchanged(rec.fields, rec.fields["items"].elems, rec.fields["notes"], calories,
      rec.fields["macros"], rec.fields["serving"]);
  }

  /** Every record the guard produces is settled. */
  lemma GuardSettles(rt: Runtime, parsed: Option<Json>)
    requires VisibilityGuard(rt, parsed).Guarded?
    ensures Settled(rt, VisibilityGuard(rt, parsed).record)
  {
    var obj := parsed.value;
    var items := ItemList(obj.fields["items"]);
    var rec := VisibilityGuard(rt, parsed).record;
    GuardItemsIdempotent(rt, items);
    CleanMacrosIdempotent(rt, MacrosIn(obj));
    assert rec.fields["items"] == JArr(GuardItems(rt, items).value);
    assert rec.fields["macros"] == CleanMacros(rt, MacrosIn(obj)).value;
  }

  /** `visibilityGuard` is idempotent: a record it produced passes through it
      again unchanged. */
  lemma GuardIdempotent(rt: Runtime, parsed: Option<Json>)
    requires VisibilityGuard(rt, parsed).Guarded?
    ensures VisibilityGuard(rt, Some(VisibilityGuard(rt, parsed).record)) == VisibilityGuard(rt, parsed)
  {
    GuardSettles(rt, parsed);
    SettledFixed(rt, VisibilityGuard(rt, parsed).record);
  }
}
